=== FILE: README.md ===
# cloud-ide control plane, modelled in Dafny

cloud-ide gives each user browser-based editors ("workspaces") that run as pods
in a Kubernetes cluster. The control plane owns the WorkSpace custom resource
and has four parts, each modelled here over an abstract API server
(`Cluster.Store`: maps from object name to WorkSpace, Pod and
PersistentVolumeClaim, plus a resource-version counter).

- **Workspace reconciler** (`WorkspaceController`). Each WorkSpace event leads
  to one of three actions:
  - a deleted WorkSpace loses its pod and its claim;
  - `Start` makes sure the claim and then the pod exist;
  - `Stop` deletes the pod and keeps the claim.

  The pod and the claim come from pure builders. The pod builder derives where
  a git repository is cloned and which directory the editor opens.
- **Pod reconciler** (`PodController`). It reports an observed pod as a
  workspace phase (Stopped, Stopping, Running or Starting). It asks the gateway
  to add or drop the workspace endpoint, and it wakes whoever waits for the
  workspace.
- **Notifier** (`Notifier`, with the client-go work queue in `WorkQueue`).
  Gateway requests go through a de-duplicating work queue that worker turns
  drain. `WaitFor` is split into two steps, `BeginWait` and `EndWait`, over a
  registry from space id to channel, and `Notify` closes the channel.
- **Workspace service** (`WorkspaceService`). This is the gRPC service behind
  the web backend. It validates requests and names a workspace
  `ws-<uid>-<sid>`. It creates, starts, stops, deletes and lists WorkSpace
  objects, and re-reads before every update in a retry of five attempts.

The API server is the environment of the model. Every call may fail
transiently, and a call may lose a race with another client. Those outcomes
are chosen nondeterministically inside the `Store` methods, so every caller is
verified against all of them. The shared types, together with the bounds the
resource schema enforces, are in `WorkspaceTypes`. `Text` holds the Go string
functions the code uses, and `Quantity` the textual form of resource
quantities.

Where the code departs from what it evidently means to do, the model keeps both
versions. It proves the discrepancy on the version as written and uses the
corrected one everywhere else; see "## Findings".

## Model

| member | source | states |
|---|---|---|
| WorkspaceTypes.ParseCommand | cmd/control-plane/internal/api/v1/workspace_types.go:26-31 | the stored command text reads back as Start, Stop or another command whose text is exactly that string |
| WorkspaceTypes.CommandRoundTrip | cmd/control-plane/internal/api/v1/workspace_types.go:84-85 | writing a well-formed command and reading it back gives the same command |
| WorkspaceTypes.ParsePhase | cmd/control-plane/internal/api/v1/workspace_types.go:33-40 | a phase text reads as one of the four named phases exactly when it is one of their names; any other text, "Created" included, stays an unnamed phase |
| WorkspaceTypes.PhaseRoundTrip | cmd/control-plane/internal/api/v1/workspace_types.go:92-93 | writing a well-formed phase and reading it back gives the same phase |
| Text.LastIndexByte | cmd/control-plane/internal/controllers/workspace_controller.go:266 | the result is -1 or an index holding the byte, and no later index holds it |
| Text.TrimSuffix | cmd/control-plane/internal/controllers/workspace_controller.go:268 | with the suffix present, result plus suffix is the input; without it, the input is unchanged |
| Text.BeforeFirst | cmd/control-plane/internal/service/workspace_service.go:318-319 | the first element of a split is a prefix without the separator, ending right before the first separator if there is one |
| Text.BeforeFirstAppend | cmd/control-plane/internal/service/workspace_service.go:318-319 | everything after the first separator is ignored |
| Text.NatToDecimal | cmd/control-plane/internal/controllers/pod_controller.go:78 | at least one digit, only digits, and no leading zero |
| Text.Itoa | cmd/control-plane/internal/controllers/pod_controller.go:78 | a non-negative number is written as digits without a leading zero that read back as the number; a negative one as a minus sign followed by such digits for its absolute value |
| Text.DecimalRoundTrip | cmd/control-plane/internal/controllers/pod_controller.go:78 | the digits written for a port read back as the same number |
| Text.TrimTrailingSlashes | cmd/control-plane/internal/controllers/workspace_controller.go:188 | a prefix of the input that ends in no slash unless it is "/", is empty only for empty input, and removes only slashes |
| Text.TrimLeadingSlashes | cmd/control-plane/internal/controllers/workspace_controller.go:188 | a suffix of the input that does not start with a slash and removes only slashes |
| Text.ParentDir | cmd/control-plane/internal/controllers/workspace_controller.go:268 | the directory above a path is "." when it has no slash, the root when its only slash is the leading one, and otherwise the non-empty prefix before the last slash |
| Text.Join | cmd/control-plane/internal/controllers/workspace_controller.go:188 | the joined path is empty exactly when both elements are, and a rooted directory gives a rooted path |
| Text.JoinOntoEmpty | cmd/control-plane/internal/controllers/workspace_controller.go:188 | joining a rooted element onto an empty directory (an empty mount path) gives the element itself, so the workspace directory is then "/workspace" |
| Text.JoinDots | cmd/control-plane/internal/controllers/workspace_controller.go:268 | joining "." onto a directory gives the directory, and ".." the directory above it |
| Text.JoinAbsolute | cmd/control-plane/internal/controllers/workspace_controller.go:188 | joining an element that starts with a single slash, other than "/." and "/..", onto a directory other than "/" appends it to the directory without its final slashes |
| Text.JoinName | cmd/control-plane/internal/controllers/workspace_controller.go:268 | joining a slash-free name other than "." and ".." onto a directory without a final slash puts exactly one slash between them |
| Quantity.IsQuantity | cmd/control-plane/internal/service/workspace_service.go:381-398 | exactly the non-empty texts made of an optional sign, a decimal number whose digits may be missing, and a binary or decimal SI suffix, as ParseQuantity and MustParse accept them |
| Quantity.FixedRequestsParse | cmd/control-plane/internal/controllers/workspace_controller.go:251-252 | the fixed requests "2" and "1Gi" parse as quantities, so MustParse never panics on them; "" does not parse |
| Quantity.WholeAmountsParse | cmd/control-plane/internal/controllers/workspace_controller.go:255-256 | any whole number of cores or of Gi parses as a quantity |
| Quantity.DigitlessAmountsParse | cmd/control-plane/internal/controllers/workspace_controller.go:251-256 | a suffix, a sign or a point without digits ("m", "Gi", "-", ".") is a quantity, which the parser reads as zero |
| Cluster.Created | cmd/control-plane/internal/api/v1/workspace_types.go:92-93 | a newly stored WorkSpace keeps name, labels and spec, gets the new version and the default phase "Created" |
| Cluster.Store.GetWorkSpace | cmd/control-plane/internal/controllers/workspace_controller.go:80 | a read returns the stored object, or NotFound exactly when it is absent, or a transient error |
| Cluster.Store.ListWorkSpaces | cmd/control-plane/internal/service/workspace_service.go:285 | a list by label uid returns every stored workspace with that label exactly once and nothing else, or a transient error |
| Cluster.Store.CreateWorkSpace | cmd/control-plane/internal/service/workspace_service.go:80 | a create stores the object with a new version and the default status, reports AlreadyExists when the name is taken, and otherwise changes nothing on error |
| Cluster.Store.UpdateWorkSpace | cmd/control-plane/internal/service/workspace_service.go:171 | an update with the current version replaces the spec and keeps the status, bumping the version; a stale version or a lost race is a Conflict; an absent object is NotFound |
| Cluster.Store.UpdateWorkSpaceStatus | cmd/control-plane/internal/controllers/pod_controller.go:122 | a status update with the current version replaces only the status, bumping the version; anything else changes nothing |
| Cluster.Store.DeleteWorkSpace | cmd/control-plane/internal/service/workspace_service.go:216 | a delete removes the object; NotFound when it was absent or another delete won |
| Cluster.Store.GetPod | cmd/control-plane/internal/controllers/workspace_controller.go:380 | the stored pod, NotFound exactly when absent, or a transient error |
| Cluster.Store.CreatePod | cmd/control-plane/internal/controllers/workspace_controller.go:172 | a create stores the pod, AlreadyExists when the name is taken, and no change on a transient error |
| Cluster.Store.DeletePod | cmd/control-plane/internal/controllers/workspace_controller.go:413 | a delete removes the pod; NotFound when it was absent or another delete won |
| Cluster.Store.GetPvc | cmd/control-plane/internal/controllers/workspace_controller.go:430 | the stored claim, NotFound exactly when absent, or a transient error |
| Cluster.Store.CreatePvc | cmd/control-plane/internal/controllers/workspace_controller.go:330 | a create stores the claim, AlreadyExists when the name is taken, and no change on a transient error |
| Cluster.Store.DeletePvc | cmd/control-plane/internal/controllers/workspace_controller.go:462 | a delete removes the claim; NotFound when it was absent or another delete won |
| WorkspaceController.WorkspaceDirBelowMount | cmd/control-plane/internal/controllers/workspace_controller.go:188 | the workspace directory is the mount path, without its final slashes, followed by "/workspace" |
| WorkspaceController.WorkspaceDir | cmd/control-plane/internal/controllers/workspace_controller.go:188 | filepath.Join(mountPath, "/workspace"); WorkspaceDirBelowMount gives its value below the root, and Text.JoinOntoEmpty its value "/workspace" for an empty mount path |
| WorkspaceController.RepoDirName | cmd/control-plane/internal/controllers/workspace_controller.go:266-268 | the clone directory name never contains a slash |
| WorkspaceController.RepoDirNameOfCloneUrl | cmd/control-plane/internal/controllers/workspace_controller.go:266-268 | a URL "<base>/<name>.git" is cloned into the directory <name> |
| WorkspaceController.LocalPath | cmd/control-plane/internal/controllers/workspace_controller.go:266-268 | the clone directory joined onto the workspace directory; ClonedRepositoryOpened and DotRepositoryOpened give its value for every "<base>/<name>.git" |
| WorkspaceController.OpenDir | cmd/control-plane/internal/controllers/workspace_controller.go:295 | the workspace directory without a repository, the clone directory with one, which is where the editor opens (ConstructPodClone) |
| WorkspaceController.ClonedRepositoryOpened | cmd/control-plane/internal/controllers/workspace_controller.go:261-296 | with a repository "<base>/<name>.git" whose name is not "." or "..", the editor opens <mount path>/workspace/<name> |
| WorkspaceController.DotRepositoryOpened | cmd/control-plane/internal/controllers/workspace_controller.go:261-296 | with a repository "<base>/..git" the editor opens <mount path>/workspace, and with "<base>/...git" the mount path itself, as filepath.Join cleans the name away |
| WorkspaceController.ConstructPod | cmd/control-plane/internal/controllers/workspace_controller.go:247-258 | building the pod panics exactly in release mode when the spec's CPU or memory does not parse; otherwise the pod is named after and owned by the workspace |
| WorkspaceController.ConstructPodShape | cmd/control-plane/internal/controllers/workspace_controller.go:186-259 | sid/uid annotations from the spec, one claim volume, one container on the spec's port and image mounting it at the mount path, and requests 2/1Gi with limits from the spec exactly in release mode |
| WorkspaceController.ConstructPodClone | cmd/control-plane/internal/controllers/workspace_controller.go:261-296 | OPEN_DIR names the opened directory; an init container exists exactly with a repository, mounts the same claim and clones REPO_URL into LOCAL_PATH = OPEN_DIR |
| WorkspaceController.ConstructPvc | cmd/control-plane/internal/controllers/workspace_controller.go:343-373 | fails exactly when storage does not parse; otherwise a ReadWriteMany claim named after the workspace requesting and limited to the storage, with the storage class exactly when dynamic provisioning is on |
| WorkspaceController.PodMountsWorkspaceClaim | cmd/control-plane/internal/controllers/workspace_controller.go:206-234 | the pod's only volume is the claim built for the same workspace and the container mounts that volume |
| WorkspaceController.WorkSpaceReconciler.CheckPodExist | cmd/control-plane/internal/controllers/workspace_controller.go:375-391 | without error, exist is whether the pod is stored; an error is the transient one and exist is false |
| WorkspaceController.WorkSpaceReconciler.CheckPvcExist | cmd/control-plane/internal/controllers/workspace_controller.go:426-441 | without error, exist is whether the claim is stored; an error is the transient one and exist is false |
| WorkspaceController.WorkSpaceReconciler.CreatePod | cmd/control-plane/internal/controllers/workspace_controller.go:150-183 | an existing pod is left alone; success means the pod exists, and when this call created it the store gains exactly the pod ConstructPod builds; AlreadyExists counts as success; a panic only when MustParse fails; only the workspace's pod can change |
| WorkspaceController.WorkSpaceReconciler.CreatePvc | cmd/control-plane/internal/controllers/workspace_controller.go:301-340 | an existing claim is left alone; success means the claim exists, and when this call created it the store gains exactly the claim ConstructPvc builds; failure is a transient error or an unparsable storage and changes nothing |
| WorkspaceController.WorkSpaceReconciler.DeletePod | cmd/control-plane/internal/controllers/workspace_controller.go:393-424 | success means the pod is absent, whether it was there or not and whether another delete won; failure changes nothing |
| WorkspaceController.WorkSpaceReconciler.DeletePvc | cmd/control-plane/internal/controllers/workspace_controller.go:443-473 | success means the claim is absent, whether it was there or not; failure changes nothing |
| WorkspaceController.WorkSpaceReconciler.Reconcile | cmd/control-plane/internal/controllers/workspace_controller.go:75-128 | only the workspace's own pod and claim change; a deleted workspace ends with neither when done and keeps its claim while its pod remains; Start creates the claim before the pod and leaves existing ones alone, done meaning both exist, and a pod or claim this reconcile created is the one ConstructPod or ConstructPvc builds from the stored workspace; Stop deletes only the pod; any other command changes nothing; every requeue carries its error |
| WorkQueue.Empty | pkg/notifier/ws_notifier.go:64 | a new queue is well formed and empty |
| WorkQueue.Add | pkg/notifier/ws_notifier.go:100-103 | an add marks only the task dirty, unless the queue is shutting down, and appends only the task, only when it was neither dirty nor held; processing and the shutdown flag are kept |
| WorkQueue.Get | pkg/notifier/ws_notifier.go:117 | the first waiting task is handed out and held as processing |
| WorkQueue.Done | pkg/notifier/ws_notifier.go:127 | only the task stops being held, and it is appended to the waiting list exactly when it was added meanwhile; dirty and the shutdown flag are kept |
| WorkQueue.ShutDown | pkg/notifier/ws_notifier.go:72-75 | the queue is shutting down and keeps what waits, what is dirty and what is held |
| WorkQueue.OperationsKeepValid | pkg/notifier/ws_notifier.go:114-130 | add, get, done and shut down keep the queue well formed: no task waits twice, and a task waits exactly when dirty and not held |
| WorkQueue.AddIdempotent | pkg/notifier/ws_notifier.go:99-112 | logging in or out twice before a worker runs queues one request |
| WorkQueue.AddQueuesOnce | pkg/notifier/ws_notifier.go:99-112 | a request neither waiting nor held is queued exactly once |
| WorkQueue.HeldTaskNeverRequeued | pkg/notifier/ws_notifier.go:122-128 | a request whose call failed is never marked done, so it stays held and never waits again, whatever else happens |
| Notifier.WorkspaceNotifier.constructor | pkg/notifier/ws_notifier.go:57-95 | the gateway URL is "https://" + service + path and a non-positive worker count becomes 4 |
| Notifier.WorkspaceNotifier.Login | pkg/notifier/ws_notifier.go:99-104 | the queue gets a POST carrying sid and endpoint, added once |
| Notifier.WorkspaceNotifier.Logout | pkg/notifier/ws_notifier.go:107-112 | the queue gets a DELETE carrying the sid only, added once |
| Notifier.WorkspaceNotifier.ShutDown | pkg/notifier/ws_notifier.go:72-75 | the queue shuts down and the registry is untouched |
| Notifier.WorkspaceNotifier.WorkerTurn | pkg/notifier/ws_notifier.go:114-130 | a worker blocks on an empty queue, exits once it is shut down, and otherwise calls the gateway with the first task's verb, URL, token and body, marking the task done only when the call succeeded |
| Notifier.WorkspaceNotifier.BeginWait | pkg/notifier/ws_notifier.go:161-170 | an existing channel for the sid is reused; otherwise a fresh open one is registered |
| Notifier.WorkspaceNotifier.EndWait | pkg/notifier/ws_notifier.go:172-187 | the sid's entry is removed on every exit; success only when the channel was closed, the context error only when the context was done |
| Notifier.WorkspaceNotifier.Notify | pkg/notifier/ws_notifier.go:190-202 | without an entry nothing happens; otherwise the channel is closed and the entry kept; closing it a second time is the panic |
| Notifier.WaitReleasedByNotify | pkg/notifier/ws_notifier.go:154-202 | a waiter registered before Notify returns success and leaves no entry |
| PodController.ObservedPhase | cmd/control-plane/internal/controllers/pod_controller.go:45-95 | an absent pod is Stopped, a terminating one Stopping (before the running check), a running one Running, any other Starting |
| PodController.Endpoint | cmd/control-plane/internal/controllers/pod_controller.go:78 | the endpoint exists exactly when the first container has a port |
| PodController.EndpointSplitsAtLastColon | cmd/control-plane/internal/controllers/pod_controller.go:78 | for any pod IP, IPv6 included, the endpoint splits at its last colon into the pod IP and decimal digits that read back as the port |
| PodController.GatewayTask | cmd/control-plane/internal/controllers/pod_controller.go:60-89 | a DELETE exactly for a terminating pod, a POST of sid and endpoint exactly for a running pod with a port and a sid annotation |
| PodController.PodReconciler.UpdateWorkspaceStatus | cmd/control-plane/internal/controllers/pod_controller.go:100-128 | at most the phase (and version) of that workspace changes, and only when it differed |
| PodController.PodReconciler.Reconcile | cmd/control-plane/internal/controllers/pod_controller.go:38-97 | a failed read changes nothing; otherwise the phase follows the observed pod, the gateway task is queued, the waiters of a running workspace are woken, a running pod without sid requeues without error, and a pod without port or a second wake-up panics |
| WorkspaceService.WorkspaceNameInjective | cmd/control-plane/internal/service/workspace_service.go:400-402 | ids without a dash give distinct workspace names |
| WorkspaceService.WorkspaceNameCollision | cmd/control-plane/internal/service/workspace_service.go:51 | a dash in the user id lets two users' spaces share a name |
| WorkspaceService.WorkspaceName | cmd/control-plane/internal/service/workspace_service.go:400-402 | "ws-<uid>-<sid>"; WorkspaceNameInjective shows distinct dash-free ids give distinct names, WorkspaceNameCollision that a dash lets two users share one |
| WorkspaceService.GitUrlWithoutDotAccepted | cmd/control-plane/internal/service/workspace_service.go:359-368 | the pattern as written accepts a URL without ".git", cloned into a directory that keeps the "git" tail |
| WorkspaceService.AcceptedGitUrlNamesCloneDir | cmd/control-plane/internal/service/workspace_service.go:359-368 | an accepted repository URL ends in ".git" and is cloned into its last segment without it |
| WorkspaceService.MountPathBelowRoot | cmd/control-plane/internal/service/workspace_service.go:369-375 | an accepted mount path is not the root, even without its final slash |
| WorkspaceService.IsGitUrl | cmd/control-plane/internal/service/workspace_service.go:359-368 | the corrected repository pattern `^https://\S+\.git$`: "https://", at least one non-blank character, then ".git" |
| WorkspaceService.IsMountPath | cmd/control-plane/internal/service/workspace_service.go:369-375 | a rooted path of word segments, optionally ending in a dotted word or a slash; MountPathBelowRoot shows such a path is never the root |
| WorkspaceService.ValidateResourceLimit | cmd/control-plane/internal/service/workspace_service.go:381-398 | accepted exactly when CPU, memory and storage all parse; the field reported really fails, CPU first |
| WorkspaceService.ValidateRequestCreate | cmd/control-plane/internal/service/workspace_service.go:349-379 | accepted exactly when sid and uid have 6 to 24 characters, the port is in 1024..65535, the repository is empty or a git URL, the mount path is valid and the limits parse; the field reported really fails, checked in that order |
| WorkspaceService.HardwareOfBinaryAmounts | cmd/control-plane/internal/service/workspace_service.go:318-319 | with Gi amounts the hardware summary reads "<cpu>C<memory>G<storage>G" |
| WorkspaceService.Hardware | cmd/control-plane/internal/service/workspace_service.go:318-319 | the CPU, "C", and the memory and storage cut at their first "i"; HardwareOfBinaryAmounts gives the summary for Gi amounts |
| WorkspaceService.ConstructWorkspace | cmd/control-plane/internal/service/workspace_service.go:317-347 | the workspace has the given name, labels uid and sid, and a spec copying the request's ids, limits, image, port, mount path and repository, with Hardware(limit) as its summary and the Start command |
| WorkspaceService.ValidRequestBuildsWorkspace | cmd/control-plane/internal/service/workspace_service.go:349-379 | a validated request is stored with its fields copied and phase "Created", and the controller builds its claim and pod without failing or panicking |
| WorkspaceService.ValidRequestOpensClone | cmd/control-plane/internal/service/workspace_service.go:317-347 | for a validated request cloning "<base>/<name>.git" with a name other than "." or "..", the editor opens <mount path>/workspace/<name> |
| WorkspaceService.TimeoutReportedAsSuccess | cmd/control-plane/internal/service/workspace_service.go:113-127 | as written, a timed-out wait followed by a successful stop is reported as success |
| WorkspaceService.WaitOutcome | cmd/control-plane/internal/service/workspace_service.go:113-127 | corrected: the wait reports failure exactly when the pod was not ready |
| WorkspaceService.RunningInfosMembers | cmd/control-plane/internal/service/workspace_service.go:291-299 | an entry is listed exactly when it is the sid and name of a listed workspace that is Starting or Running |
| WorkspaceService.RunningInfos | cmd/control-plane/internal/service/workspace_service.go:291-299 | the sid and name of each listed workspace that is Starting or Running, in list order; RunningInfosMembers states membership both ways |
| WorkspaceService.Changed | cmd/control-plane/internal/service/workspace_service.go:158-173 | the update sets the command, sets cpu and memory to the given limits when limits are given and keeps them otherwise, and leaves storage, hardware, ids, image, port, mount path and repository alone |
| WorkspaceService.WorkSpaceService.CheckWorkspaceExist | cmd/control-plane/internal/service/workspace_service.go:304-315 | a found workspace is the stored one, and an absent one is never found |
| WorkspaceService.WorkSpaceService.RetryUpdate | cmd/control-plane/internal/service/workspace_service.go:248-263 | at most the spec of that workspace changes, to the change applied to the latest copy; success means it was written; an absent workspace ends without error and with exist false |
| WorkspaceService.WorkSpaceService.StartRetryAsWritten | cmd/control-plane/internal/service/workspace_service.go:164-179 | as written: once the stored copy has moved on, the new spec is never written; an absent workspace is reported without error |
| WorkspaceService.WorkSpaceService.WaitForPodRunning | cmd/control-plane/internal/service/workspace_service.go:106-128 | failure exactly when not ready; after a failed wait the workspace is stopped at most |
| WorkspaceService.WorkSpaceService.CreateSpace | cmd/control-plane/internal/service/workspace_service.go:55-104 | only the requested workspace can change; an invalid request is InvalidArgument and changes nothing; an existing name is AlreadyExist (or a create error) with nothing changed; a create error changes nothing; success means the workspace was created from the request and its pod came up; ResourceExhausted means the pod did not come up and the created workspace stays, with Stop written unless that update failed |
| WorkspaceService.WorkSpaceService.StartSpace | cmd/control-plane/internal/service/workspace_service.go:131-203 | bad limits are an error with nothing changed; an absent workspace is NotFound; success means it was already up, or its CPU, memory and Start command were written and its pod came up, with every other workspace untouched; on every path the workspace keeps its status and its spec is the old or the started one, and at most the workspace named by the ids in its spec may get the Stop of a failed wait |
| WorkspaceService.WorkSpaceService.StopSpace | cmd/control-plane/internal/service/workspace_service.go:228-279 | an absent workspace is NotFound; only the Stop command of that workspace may be written; success means it was already down or Stop was written |
| WorkspaceService.WorkSpaceService.DeleteSpace | cmd/control-plane/internal/service/workspace_service.go:206-225 | at most that workspace is deleted; an absent one is success; any other outcome is the delete error |
| WorkspaceService.WorkSpaceService.RunningWorkspaces | cmd/control-plane/internal/service/workspace_service.go:282-302 | a list error is Unknown; otherwise the result is the running entries of a complete listing of the user's workspaces |

## Left out

- The Kubernetes client and controller-runtime plumbing are replaced by `Cluster.Store`. This covers namespaces, owner references and their garbage collection, watches, caches, the field index, the event predicates and `SetupWithManager`.
- WorkspaceController.WorkSpaceReconciler.CreatePod: a failure of `SetControllerReference` is not modelled. The owner is recorded as a field instead.
- WorkspaceController.WorkSpaceReconciler.CreatePvc: a failure of `SetControllerReference` is not modelled either.
- Cluster.Store.DeletePod: a delete removes the pod at once. Graceful termination, where a pod is first only marked terminating, is represented only by the pod's `terminating` field.
- Cluster.Store.CreatePod: after a lost create race, the racing pod's contents are unspecified.
- Quantity parsing is simplified. The parser takes a sign, a decimal number (whose digits may be missing, read as zero) and a binary or decimal SI suffix. Exponent forms ("1e3"), range limits and canonicalisation are not modelled, nor are the numeric errors of numbers too long for the parser.
- The two regular expressions are written as character-class predicates. Go's `\w` and `\S` are taken over single characters, with no Unicode classes.
- `filepath.Join` is modelled for a directory without "." or ".." segments and without repeated slashes, and a second element that is "." or "..", or has no such segment, no repeated slash inside it and no final slash. The controller joins "/workspace" and a clone directory name without slashes, which fit.
- WorkspaceService.ValidateRequestCreate: the lengths of sid and uid are counted in characters, which agrees with Go's `len` only for ASCII ids. Go counts UTF-8 bytes. So an id of 6 to 24 bytes but fewer than 6 characters passes the program's check and is InvalidArgument here; the resource schema, which counts characters, then refuses it in the program. An id of 6 to 24 characters but more than 24 bytes is refused by the program and accepted here.
- Concurrency is out of scope:
  - the two reconcilers, the service and the notifier workers run concurrently in the program;
  - the model states each operation against one store state and one notifier state;
  - interleavings are represented only through the store's nondeterministic races.
- Time is out of scope. This covers the 30-second client timeouts, the 60-second wait of `waitForPodRunning`, the rate limiter and the retry back-off. The outcome of the wait is the parameter `ready` of the service methods.
- WorkspaceService.WorkSpaceService.WaitForPodRunning: it does not connect `ready` to the notifier's `EndWait`. The rendezvous is modelled on its own in `Notifier`, and `Notifier.WaitReleasedByNotify` states it.
- Notifier.WorkspaceNotifier.constructor: the error `NewWorkspaceNotifier` returns when configuring the http2 transport fails is not modelled; the constructor always succeeds, because the transport is outside the model.
- Notifier.WorkspaceNotifier.WorkerTurn: the HTTPS call itself is modelled only as the argument `delivered`. This covers JSON encoding, TLS, the http2 transport and its configuration error. The worker goroutines are modelled as turns.
- The gRPC server, its recovery interceptor and the web backend are out of scope. The same goes for the gateway and the front-end.
- WorkspaceService.WorkSpaceService.StartSpace: a request without a resource limit, where the code dereferences nil, is not modelled. The same holds for CreateSpace.
- Error and log message texts are not modelled. Validation reports which field failed, as `InvalidField`, and not the message.
- The command field's comment names "Start", "Stop" and "". The schema does not enforce this, and the reconciler ignores any other text, so `Command` keeps any other text as `OtherCommand`.
- Notifier.WorkspaceNotifier.Notify: closing an already closed channel panics in the program. The model returns `ok == false` instead of forbidding the call.

## Findings

| source | as written | input that shows it | evidently intended | confidence | as-written member | corrected member |
|---|---|---|---|---|---|---|
| cmd/control-plane/internal/service/workspace_service.go:113-127 | after a failed wait the function returns the error of StopSpace, so a wait that times out and is followed by a successful stop returns nil, and CreateSpace/StartSpace report success for a workspace that never came up | wait times out, StopSpace succeeds | report the wait failure (ResourceExhausted) whatever the stop returns | high, not executed | WorkspaceService.WaitOutcomeAsWritten, WorkspaceService.TimeoutReportedAsSuccess | WorkspaceService.WaitOutcome |
| cmd/control-plane/internal/service/workspace_service.go:359-368 | `^https://\S+.git$` leaves the dot unescaped, so any character may stand before "git" | "https://host/repogit" is accepted and cloned into "repogit" | `^https://\S+\.git$`: the URL must end in ".git" | medium, not executed | WorkspaceService.IsGitUrlAsWritten, WorkspaceService.GitUrlWithoutDotAccepted | WorkspaceService.IsGitUrl, WorkspaceService.AcceptedGitUrlNamesCloneDir |
| cmd/control-plane/internal/service/workspace_service.go:164-179 | every retry attempt re-reads the workspace into a copy it discards and resubmits the copy read before the retry; and `exist :=` declares a new variable inside the closure, so a workspace deleted meanwhile is reported as updated | the first update loses to a concurrent status write (Conflict); every later attempt submits the same stale version and conflicts again | update the re-read copy with the new CPU, memory and Start command, and report NotFound when it has gone, as StopSpace does | high, not executed | WorkspaceService.WorkSpaceService.StartRetryAsWritten | WorkspaceService.WorkSpaceService.RetryUpdate |

=== FILE: cluster.dfy ===
/**
 * The Kubernetes API server as the control plane sees it: the stored
 * WorkSpace, Pod and PersistentVolumeClaim objects, and the calls the
 * controllers and the service make on them.
 *
 * The store is the environment of the model. Every call may fail with a
 * transient error, and calls that race with other clients (a create that
 * loses to a stale cache, a delete that loses to another delete, an update
 * that loses to another writer) may report the race; those choices are made
 * nondeterministically inside the methods, so callers are verified against
 * all of them.
 */
module Cluster {
  import opened Common
  import opened WorkspaceTypes

  /** The error kinds the callers tell apart; Unavailable stands for every other error. */
  datatype ApiError = NotFound | AlreadyExists | Conflict | Unavailable

  datatype EnvVar = EnvVar(name: string, value: string)

  datatype VolumeMount = VolumeMount(volume: string, mountPath: string)

  datatype ResourceList = ResourceList(cpu: string, memory: string)

  datatype Resources = Resources(requests: ResourceList, limits: ResourceList)

  datatype Container = Container(
    name: string,
    image: string,
    workingDir: string,
    ports: seq<int>,
    mounts: seq<VolumeMount>,
    env: seq<EnvVar>,
    resources: Option<Resources>)

  /** A pod volume backed by the persistent volume claim `claimName`. */
  datatype Volume = Volume(name: string, claimName: string)

  datatype PodPhase = PodPending | PodRunning | PodSucceeded | PodFailed | PodUnknown

  /**
   * A pod: `owner` is the name of the WorkSpace that owns it (empty for none),
   * `terminating` says a deletion timestamp is set, `phase` and `podIP` are
   * what the kubelet reports.
   */
  datatype Pod = Pod(
    name: string,
    annotations: map<string, string>,
    labels: map<string, string>,
    owner: string,
    volumes: seq<Volume>,
    initContainers: seq<Container>,
    containers: seq<Container>,
    terminating: bool,
    phase: PodPhase,
    podIP: string)

  datatype Pvc = Pvc(
    name: string,
    owner: string,
    accessModes: seq<string>,
    storageRequest: string,
    storageLimit: string,
    storageClassName: Option<string>)

  /** A Go map lookup: the value under `key`, or "" when there is none. */
  function Lookup(m: map<string, string>, key: string): (v: string)
    ensures key in m ==> v == m[key]
    ensures key !in m ==> v == ""
  {
    if key in m then m[key] else ""
  }

  /** Why a reconcile step failed: an API error, or a quantity that does not parse. */
  datatype Failure = ApiFailure(error: ApiError) | BadQuantity

  /**
   * What a reconcile returns to the controller runtime: done, requeue (with the
   * error it returned, if any), or a panic that ends the reconcile.
   */
  datatype ReconcileResult = Done | Requeue(failure: Option<Failure>) | Crashed

  /** `after` holds the same objects as `before` under every name but `key`. */
  ghost predicate AgreeExcept<V>(before: map<string, V>, after: map<string, V>, key: string) {
    forall n :: n != key ==> (n in after <==> n in before) && (n in after ==> after[n] == before[n])
  }

  /** `after` holds the same objects as `before` under every name outside `keys`. */
  ghost predicate AgreeOutside<V>(before: map<string, V>, after: map<string, V>, keys: set<string>) {
    forall n :: n !in keys ==> (n in after <==> n in before) && (n in after ==> after[n] == before[n])
  }

  /** A newly created WorkSpace as the API server stores it: new version, default phase. */
  function Created(ws: WorkSpace, version: nat): (stored: WorkSpace)
    ensures stored.spec == ws.spec && stored.name == ws.name && stored.labels == ws.labels
    ensures stored.status.phase == CreatedPhase && stored.resourceVersion == version
  {
    ws.(resourceVersion := version, status := WorkSpaceStatus(CreatedPhase))
  }

  /** The label selector uid=`uid`. */
  predicate LabelledFor(ws: WorkSpace, uid: string) {
    "uid" in ws.labels && ws.labels["uid"] == uid
  }

  /**
   * Part way through a listing of `store` for `uid`: `items` holds, once each,
   * the labelled objects not `pending`, and `position` says where each sits.
   */
  ghost predicate ListedSoFar(store: map<string, WorkSpace>, uid: string, pending: set<string>,
                              position: map<string, nat>, items: seq<WorkSpace>) {
    && pending !! position.Keys
    && (forall n :: n in store && LabelledFor(store[n], uid) ==> n in pending || n in position)
    && (forall n :: n in pending ==> n in store && LabelledFor(store[n], uid))
    && (forall i :: 0 <= i < |items| ==>
          items[i].name in position && items[i].name in store && store[items[i].name] == items[i] && LabelledFor(items[i], uid))
    && (forall n :: n in position ==> position[n] < |items| && items[position[n]].name == n)
    && (forall i, j :: 0 <= i < j < |items| ==> items[i].name != items[j].name)
  }

  /** Listing one more pending name keeps the listing consistent. */
  lemma ListStep(store: map<string, WorkSpace>, uid: string, pending: set<string>,
                 position: map<string, nat>, items: seq<WorkSpace>, n: string)
    requires ListedSoFar(store, uid, pending, position, items)
    requires n in pending && store[n].name == n
    ensures ListedSoFar(store, uid, pending - {n}, position[n := |items|], items + [store[n]])
  {
  }

  class Store {
    var workspaces: map<string, WorkSpace>
    var pods: map<string, Pod>
    var pvcs: map<string, Pvc>
    /** The last resource version handed out. */
    var revision: nat

    /** Objects are stored under their own names; no version is ahead of the store. */
    ghost predicate Valid()
      reads this
    {
      && (forall n :: n in workspaces ==> workspaces[n].name == n && workspaces[n].resourceVersion <= revision)
      && (forall n :: n in pods ==> pods[n].name == n)
      && (forall n :: n in pvcs ==> pvcs[n].name == n)
    }

    constructor ()
      ensures Valid()
      ensures workspaces == map[] && pods == map[] && pvcs == map[] && revision == 0
    {
      workspaces := map[];
      pods := map[];
      pvcs := map[];
      revision := 0;
    }

    method GetWorkSpace(name: string) returns (r: Result<WorkSpace, ApiError>)
      ensures r.Ok? ==> name in workspaces && r.value == workspaces[name]
      ensures r.Err? ==> r.error == Unavailable || r.error == NotFound
      ensures r == Err(NotFound) <==> name !in workspaces && r.Err? && r.error != Unavailable
    {
      var unavailable: bool :| true;
      if unavailable {
        return Err(Unavailable);
      }
      if name !in workspaces {
        return Err(NotFound);
      }
      return Ok(workspaces[name]);
    }

    /** `items` lists each stored WorkSpace labelled with `uid` exactly once, and nothing else. */
    ghost predicate Listing(items: seq<WorkSpace>, uid: string)
      reads this
    {
      && (forall i :: 0 <= i < |items| ==> items[i].name in workspaces && workspaces[items[i].name] == items[i] && LabelledFor(items[i], uid))
      && (forall n :: n in workspaces && LabelledFor(workspaces[n], uid) ==> exists i :: 0 <= i < |items| && items[i].name == n)
      && (forall i, j :: 0 <= i < j < |items| ==> items[i].name != items[j].name)
    }

    /** List with the label selector uid=`uid`. */
    method ListWorkSpaces(uid: string) returns (r: Result<seq<WorkSpace>, ApiError>)
      requires Valid()
      ensures r.Err? ==> r.error == Unavailable
      ensures r.Ok? ==> Listing(r.value, uid)
    {
      var unavailable: bool :| true;
      if unavailable {
        return Err(Unavailable);
      }
      var pending := set n | n in workspaces && LabelledFor(workspaces[n], uid);
      ghost var position: map<string, nat> := map[];
      var items: seq<WorkSpace> := [];
      while pending != {}
        invariant ListedSoFar(workspaces, uid, pending, position, items)
        decreases pending
      {
        var n :| n in pending;
        ListStep(workspaces, uid, pending, position, items, n);
        position := position[n := |items|];
        items := items + [workspaces[n]];
        pending := pending - {n};
      }
      forall n | n in workspaces && LabelledFor(workspaces[n], uid)
        ensures exists i :: 0 <= i < |items| && items[i].name == n
      {
        assert items[position[n]].name == n;
      }
      return Ok(items);
    }

    method CreateWorkSpace(ws: WorkSpace) returns (err: Option<ApiError>)
      requires Valid()
      modifies this
      ensures Valid()
      ensures pods == old(pods) && pvcs == old(pvcs)
      ensures err.None? ==> ws.name !in old(workspaces) && revision == old(revision) + 1
                            && workspaces == old(workspaces)[ws.name := Created(ws, revision)]
      ensures err.Some? ==> err.value == AlreadyExists || err.value == Unavailable
      ensures err == Some(AlreadyExists) ==> ws.name in workspaces && AgreeExcept(old(workspaces), workspaces, ws.name)
      ensures err == Some(Unavailable) || ws.name in old(workspaces) ==> workspaces == old(workspaces)
      ensures ws.name in old(workspaces) ==> err.Some?
    {
      var unavailable: bool :| true;
      if unavailable {
        return Some(Unavailable);
      }
      if ws.name in workspaces {
        return Some(AlreadyExists);
      }
      revision := revision + 1;
      workspaces := workspaces[ws.name := Created(ws, revision)];
      var lostRace: bool :| true;
      if lostRace {
        // Another client created the object first.
        return Some(AlreadyExists);
      }
      return None;
    }

    /** Update: writes labels and spec, keeps the stored status; the version read must still be current. */
    method UpdateWorkSpace(ws: WorkSpace) returns (err: Option<ApiError>)
      requires Valid()
      modifies this
      ensures Valid()
      ensures pods == old(pods) && pvcs == old(pvcs)
      ensures err.None? ==> ws.name in old(workspaces) && ws.resourceVersion == old(workspaces[ws.name].resourceVersion)
                            && revision == old(revision) + 1
                            && workspaces == old(workspaces)[ws.name := ws.(status := old(workspaces[ws.name].status), resourceVersion := revision)]
      ensures err.Some? ==> err.value != AlreadyExists
      ensures err == Some(NotFound) ==> ws.name !in old(workspaces)
      ensures err == Some(Conflict) ==>
        ws.name in old(workspaces) &&
        ((ws.resourceVersion != old(workspaces[ws.name].resourceVersion) && workspaces == old(workspaces) && revision == old(revision))
         || (revision == old(revision) + 1 && workspaces == old(workspaces)[ws.name := old(workspaces[ws.name]).(resourceVersion := revision)]))
      ensures err.Some? && err.value != Conflict ==> workspaces == old(workspaces) && revision == old(revision)
      ensures ws.name !in old(workspaces) ==> err.Some? && err.value != Conflict
      ensures ws.name in old(workspaces) && ws.resourceVersion != old(workspaces[ws.name].resourceVersion) ==> err.Some?
    {
      var unavailable: bool :| true;
      if unavailable {
        return Some(Unavailable);
      }
      if ws.name !in workspaces {
        return Some(NotFound);
      }
      var current := workspaces[ws.name];
      if current.resourceVersion != ws.resourceVersion {
        return Some(Conflict);
      }
      var lostRace: bool :| true;
      if lostRace {
        // Another writer updated the object after it was read.
        revision := revision + 1;
        workspaces := workspaces[ws.name := current.(resourceVersion := revision)];
        return Some(Conflict);
      }
      revision := revision + 1;
      workspaces := workspaces[ws.name := ws.(status := current.status, resourceVersion := revision)];
      return None;
    }

    /** Status().Update: writes the status only; the version read must still be current. */
    method UpdateWorkSpaceStatus(ws: WorkSpace) returns (err: Option<ApiError>)
      requires Valid()
      modifies this
      ensures Valid()
      ensures pods == old(pods) && pvcs == old(pvcs)
      ensures err.None? ==> ws.name in old(workspaces) && ws.resourceVersion == old(workspaces[ws.name].resourceVersion)
                            && revision == old(revision) + 1
                            && workspaces == old(workspaces)[ws.name := old(workspaces[ws.name]).(status := ws.status, resourceVersion := revision)]
      ensures err.Some? ==> workspaces == old(workspaces) && revision == old(revision) && err.value != AlreadyExists
      ensures err == Some(NotFound) ==> ws.name !in old(workspaces)
      ensures err == Some(Conflict) ==> ws.name in old(workspaces) && ws.resourceVersion != old(workspaces[ws.name].resourceVersion)
    {
      var unavailable: bool :| true;
      if unavailable {
        return Some(Unavailable);
      }
      if ws.name !in workspaces {
        return Some(NotFound);
      }
      var current := workspaces[ws.name];
      if current.resourceVersion != ws.resourceVersion {
        return Some(Conflict);
      }
      revision := revision + 1;
      workspaces := workspaces[ws.name := current.(status := ws.status, resourceVersion := revision)];
      return None;
    }

    method DeleteWorkSpace(name: string) returns (err: Option<ApiError>)
      requires Valid()
      modifies this
      ensures Valid()
      ensures pods == old(pods) && pvcs == old(pvcs) && revision == old(revision)
      ensures err.Some? ==> err.value == NotFound || err.value == Unavailable
      ensures err != Some(Unavailable) ==> workspaces == old(workspaces) - {name}
      ensures err == Some(Unavailable) ==> workspaces == old(workspaces)
      ensures name !in old(workspaces) ==> err.Some?
    {
      var unavailable: bool :| true;
      if unavailable {
        return Some(Unavailable);
      }
      var lostRace: bool :| true;
      var present := name in workspaces && !lostRace;
      workspaces := workspaces - {name};
      return if present then None else Some(NotFound);
    }

    method GetPod(name: string) returns (r: Result<Pod, ApiError>)
      ensures r.Ok? ==> name in pods && r.value == pods[name]
      ensures r.Err? ==> r.error == Unavailable || r.error == NotFound
      ensures r == Err(NotFound) <==> name !in pods && r.Err? && r.error != Unavailable
    {
      var unavailable: bool :| true;
      if unavailable {
        return Err(Unavailable);
      }
      if name !in pods {
        return Err(NotFound);
      }
      return Ok(pods[name]);
    }

    method CreatePod(p: Pod) returns (err: Option<ApiError>)
      requires Valid()
      modifies this
      ensures Valid()
      ensures workspaces == old(workspaces) && pvcs == old(pvcs) && revision == old(revision)
      ensures err.None? ==> p.name !in old(pods) && pods == old(pods)[p.name := p]
      ensures err.Some? ==> err.value == AlreadyExists || err.value == Unavailable
      ensures err == Some(AlreadyExists) ==> p.name in pods && AgreeExcept(old(pods), pods, p.name)
      ensures err == Some(Unavailable) || p.name in old(pods) ==> pods == old(pods)
      ensures p.name in old(pods) ==> err.Some?
    {
      var unavailable: bool :| true;
      if unavailable {
        return Some(Unavailable);
      }
      if p.name in pods {
        return Some(AlreadyExists);
      }
      pods := pods[p.name := p];
      var lostRace: bool :| true;
      if lostRace {
        // A pod of that name appeared after the caller's read.
        return Some(AlreadyExists);
      }
      return None;
    }

    method DeletePod(name: string) returns (err: Option<ApiError>)
      requires Valid()
      modifies this
      ensures Valid()
      ensures workspaces == old(workspaces) && pvcs == old(pvcs) && revision == old(revision)
      ensures err.Some? ==> err.value == NotFound || err.value == Unavailable
      ensures err != Some(Unavailable) ==> pods == old(pods) - {name}
      ensures err == Some(Unavailable) ==> pods == old(pods)
      ensures name !in old(pods) ==> err.Some?
    {
      var unavailable: bool :| true;
      if unavailable {
        return Some(Unavailable);
      }
      var lostRace: bool :| true;
      var present := name in pods && !lostRace;
      pods := pods - {name};
      return if present then None else Some(NotFound);
    }

    method GetPvc(name: string) returns (r: Result<Pvc, ApiError>)
      ensures r.Ok? ==> name in pvcs && r.value == pvcs[name]
      ensures r.Err? ==> r.error == Unavailable || r.error == NotFound
      ensures r == Err(NotFound) <==> name !in pvcs && r.Err? && r.error != Unavailable
    {
      var unavailable: bool :| true;
      if unavailable {
        return Err(Unavailable);
      }
      if name !in pvcs {
        return Err(NotFound);
      }
      return Ok(pvcs[name]);
    }

    method CreatePvc(c: Pvc) returns (err: Option<ApiError>)
      requires Valid()
      modifies this
      ensures Valid()
      ensures workspaces == old(workspaces) && pods == old(pods) && revision == old(revision)
      ensures err.None? ==> c.name !in old(pvcs) && pvcs == old(pvcs)[c.name := c]
      ensures err.Some? ==> err.value == AlreadyExists || err.value == Unavailable
      ensures err == Some(AlreadyExists) ==> c.name in pvcs && AgreeExcept(old(pvcs), pvcs, c.name)
      ensures err == Some(Unavailable) || c.name in old(pvcs) ==> pvcs == old(pvcs)
      ensures c.name in old(pvcs) ==> err.Some?
    {
      var unavailable: bool :| true;
      if unavailable {
        return Some(Unavailable);
      }
      if c.name in pvcs {
        return Some(AlreadyExists);
      }
      pvcs := pvcs[c.name := c];
      var lostRace: bool :| true;
      if lostRace {
        // A claim of that name appeared after the caller's read.
        return Some(AlreadyExists);
      }
      return None;
    }

    method DeletePvc(name: string) returns (err: Option<ApiError>)
      requires Valid()
      modifies this
      ensures Valid()
      ensures workspaces == old(workspaces) && pods == old(pods) && revision == old(revision)
      ensures err.Some? ==> err.value == NotFound || err.value == Unavailable
      ensures err != Some(Unavailable) ==> pvcs == old(pvcs) - {name}
      ensures err == Some(Unavailable) ==> pvcs == old(pvcs)
      ensures name !in old(pvcs) ==> err.Some?
    {
      var unavailable: bool :| true;
      if unavailable {
        return Some(Unavailable);
      }
      var lostRace: bool :| true;
      var present := name in pvcs && !lostRace;
      pvcs := pvcs - {name};
      return if present then None else Some(NotFound);
    }
  }
}

=== FILE: common.dfy ===
/** Failure-compatible wrappers shared by every module of the model. */
module Common {

  datatype Option<+T> = None | Some(value: T)

  datatype Result<+T, +E> = Ok(value: T) | Err(error: E)
}

=== FILE: notifier.dfy ===
/**
 * The workspace notifier. It registers and unregisters workspace endpoints
 * with the gateway through a work queue that a pool of workers drains with
 * HTTPS calls, and it lets a caller wait until the pod controller reports a
 * workspace's pod as running.
 *
 * Channels are modelled by number: `wsc` maps a workspace id to the channel
 * its waiters block on, and `closed` holds the channels already closed.
 */
module Notifier {
  import opened Common
  import WorkQueue

  const MethodPost := "POST"
  const MethodDelete := "DELETE"
  const DefaultWorkers := 4

  /** The body sent to the gateway. */
  datatype Request = Request(sid: string, endpoint: string)

  datatype Task = Task(req: Request, verb: string)

  /** One HTTPS call to the gateway: verb, URL, the "token" header and the body. */
  datatype HttpCall = HttpCall(verb: string, url: string, token: string, body: Request)

  /** What one turn of a worker loop did. */
  datatype WorkerTurn = Blocked | Exited | Called(call: HttpCall)

  /** Why a wait ended without the pod becoming ready: the caller's context was done. */
  datatype WaitError = ContextDone

  class WorkspaceNotifier {
    const url: string
    const token: string
    const workers: nat
    var queue: WorkQueue.Queue<Task>
    var wsc: map<string, nat>
    var closed: set<nat>
    /** The number the next channel made gets. */
    var nextChannel: nat

    ghost predicate Valid()
      reads this
    {
      && WorkQueue.Valid(queue)
      && workers > 0
      && (forall sid :: sid in wsc ==> wsc[sid] < nextChannel)
      && (forall ch :: ch in closed ==> ch < nextChannel)
    }

    /** NewWorkspaceNotifier: the gateway URL is https://<service><path>; a non-positive worker count means 4. */
    constructor (svcName: string, path: string, token: string, workers: int)
      ensures Valid()
      ensures url == "https://" + svcName + path && this.token == token
      ensures this.workers == (if workers <= 0 then DefaultWorkers else workers)
      ensures queue == WorkQueue.Empty() && wsc == map[] && closed == {}
    {
      url := "https://" + svcName + path;
      this.token := token;
      this.workers := if workers <= 0 then DefaultWorkers else workers;
      queue := WorkQueue.Empty();
      wsc := map[];
      closed := {};
      nextChannel := 0;
    }

    /** Queue the registration of `endpoint` for workspace `sid` (a POST). */
    method Login(sid: string, endpoint: string)
      requires Valid()
      modifies this
      ensures Valid()
      ensures queue == WorkQueue.Add(old(queue), Task(Request(sid, endpoint), MethodPost))
      ensures wsc == old(wsc) && closed == old(closed) && nextChannel == old(nextChannel)
    {
      WorkQueue.OperationsKeepValid(queue, Task(Request(sid, endpoint), MethodPost));
      queue := WorkQueue.Add(queue, Task(Request(sid, endpoint), MethodPost));
    }

    /** Queue the removal of workspace `sid` from the gateway (a DELETE without endpoint). */
    method Logout(sid: string)
      requires Valid()
      modifies this
      ensures Valid()
      ensures queue == WorkQueue.Add(old(queue), Task(Request(sid, ""), MethodDelete))
      ensures wsc == old(wsc) && closed == old(closed) && nextChannel == old(nextChannel)
    {
      WorkQueue.OperationsKeepValid(queue, Task(Request(sid, ""), MethodDelete));
      queue := WorkQueue.Add(queue, Task(Request(sid, ""), MethodDelete));
    }

    /** The context of the process is done: the queue shuts down and workers exit once it is empty. */
    method ShutDown()
      requires Valid()
      modifies this
      ensures Valid()
      ensures queue == WorkQueue.ShutDown(old(queue))
      ensures wsc == old(wsc) && closed == old(closed) && nextChannel == old(nextChannel)
    {
      WorkQueue.OperationsKeepValid(queue, Task(Request("", ""), MethodPost));
      queue := WorkQueue.ShutDown(queue);
    }

    /**
     * One turn of a worker loop: take the first task and send it to the gateway.
     * `delivered` says whether the HTTPS call returned without error. Only a
     * delivered task is marked done; a failed one is logged and stays held.
     */
    method WorkerTurn(delivered: bool) returns (turn: WorkerTurn)
      requires Valid()
      modifies this
      ensures Valid()
      ensures wsc == old(wsc) && closed == old(closed) && nextChannel == old(nextChannel)
      ensures old(queue.items) == [] ==> queue == old(queue)
      ensures turn.Blocked? <==> old(queue.items) == [] && !old(queue.shuttingDown)
      ensures turn.Exited? <==> old(queue.items) == [] && old(queue.shuttingDown)
      ensures turn.Called? ==>
        var (t, taken) := WorkQueue.Get(old(queue));
        && turn.call == HttpCall(t.verb, url, token, t.req)
        && queue == (if delivered then WorkQueue.Done(taken, t) else taken)
    {
      if queue.items == [] {
        return if queue.shuttingDown then Exited else Blocked;
      }
      WorkQueue.OperationsKeepValid(queue, queue.items[0]);
      var (t, taken) := WorkQueue.Get(queue);
      WorkQueue.OperationsKeepValid(taken, t);
      var call := HttpCall(t.verb, url, token, t.req);
      if delivered {
        queue := WorkQueue.Done(taken, t);
      } else {
        queue := taken;
      }
      return Called(call);
    }

    /** First half of WaitFor: find the channel of `sid`, or make and register one. */
    method BeginWait(sid: string) returns (ch: nat)
      requires Valid()
      modifies this
      ensures Valid()
      ensures queue == old(queue) && closed == old(closed)
      ensures sid in old(wsc) ==> ch == old(wsc[sid]) && wsc == old(wsc) && nextChannel == old(nextChannel)
      ensures sid !in old(wsc) ==> ch == old(nextChannel) && nextChannel == ch + 1 && wsc == old(wsc)[sid := ch]
      ensures sid !in old(wsc) ==> ch !in closed
      ensures wsc[sid] == ch
    {
      if sid in wsc {
        ch := wsc[sid];
      } else {
        ch := nextChannel;
        nextChannel := nextChannel + 1;
        wsc := wsc[sid := ch];
      }
    }

    /**
     * Second half of WaitFor, once its select can proceed: either the caller's
     * context is done or channel `ch` is closed (when both hold, either may
     * win). The entry of `sid` is removed on every exit.
     */
    method EndWait(sid: string, ch: nat, contextDone: bool) returns (err: Option<WaitError>)
      requires Valid()
      requires contextDone || ch in closed
      modifies this
      ensures Valid()
      ensures wsc == old(wsc) - {sid}
      ensures queue == old(queue) && closed == old(closed) && nextChannel == old(nextChannel)
      ensures err.None? ==> ch in closed
      ensures err.Some? ==> contextDone
      ensures !contextDone ==> err.None?
      ensures ch !in closed ==> err == Some(ContextDone)
    {
      var channelWins: bool :| true;
      if ch in closed && (!contextDone || channelWins) {
        err := None;
      } else {
        err := Some(ContextDone);
      }
      wsc := wsc - {sid};
    }

    /**
     * Wake the waiters of `sid` by closing its channel; without a waiter it does
     * nothing. Closing a channel that is already closed panics: `ok` is false
     * and nothing changes.
     */
    method Notify(sid: string) returns (ok: bool)
      requires Valid()
      modifies this
      ensures Valid()
      ensures wsc == old(wsc) && queue == old(queue) && nextChannel == old(nextChannel)
      ensures !ok <==> sid in old(wsc) && old(wsc[sid]) in old(closed)
      ensures ok && sid in old(wsc) ==> closed == old(closed) + {old(wsc[sid])}
      ensures sid !in old(wsc) || !ok ==> closed == old(closed)
    {
      if sid !in wsc {
        return true;
      }
      var ch := wsc[sid];
      if ch in closed {
        return false;
      }
      closed := closed + {ch};
      return true;
    }
  }

  /**
   * A workspace whose waiter registered before the pod controller's Notify is
   * released with success, and leaves no entry behind; a second Notify before
   * the waiter leaves would panic.
   */
  method WaitReleasedByNotify(n: WorkspaceNotifier, sid: string, contextDone: bool) returns (err: Option<WaitError>)
    requires n.Valid() && sid !in n.wsc
    modifies n
    ensures n.Valid()
    ensures !contextDone ==> err.None?
    ensures sid !in n.wsc && n.wsc == old(n.wsc)
    ensures n.queue == old(n.queue)
  {
    var ch := n.BeginWait(sid);
    var ok := n.Notify(sid);
    assert ok && ch in n.closed;
    err := n.EndWait(sid, ch, contextDone);
  }
}

=== FILE: pod_controller.dfy ===
/**
 * The Pod controller: it watches pods and, for the pod named like a
 * workspace, records the observed phase in the workspace's status, tells
 * the gateway to add or drop the workspace's endpoint, and wakes whoever
 * waits for the workspace to come up.
 */
module PodController {
  import opened Common
  import opened Text
  import opened WorkspaceTypes
  import opened Cluster
  import opened Notifier
  import WorkQueue

  /** What a Get of `key` would find. */
  function Observed(pods: map<string, Pod>, key: string): Option<Pod> {
    if key in pods then Some(pods[key]) else None
  }

  /** The workspace phase that reports an observed pod: gone, terminating, running, or anything else. */
  function ObservedPhase(pod: Option<Pod>): (p: Phase)
    ensures WellFormedPhase(p) && !p.OtherPhase?
    ensures p == Stopped <==> pod.None?
    ensures p == Stopping <==> pod.Some? && pod.value.terminating
    ensures p == Running <==> pod.Some? && !pod.value.terminating && pod.value.phase == PodRunning
    ensures p == Starting <==> pod.Some? && !pod.value.terminating && pod.value.phase != PodRunning
  {
    match pod
    case None => Stopped
    case Some(p) =>
      if p.terminating then Stopping
      else if p.phase == PodRunning then Running
      else Starting
  }

  /**
   * The address the gateway forwards to: "<pod IP>:<first port of the first
   * container>". None when the pod has no container or no port, where the
   * source indexes out of range and panics.
   */
  function Endpoint(pod: Pod): (e: Option<string>)
    ensures e.Some? <==> |pod.containers| > 0 && |pod.containers[0].ports| > 0
  {
    if |pod.containers| > 0 && |pod.containers[0].ports| > 0
    then Some(pod.podIP + ":" + Itoa(pod.containers[0].ports[0]))
    else None
  }

  /**
   * The endpoint splits back into its parts at its last colon: the text
   * before it is the pod IP, IPv6 addresses and their colons included, and
   * the text after it reads back as the port.
   */
  lemma EndpointSplitsAtLastColon(pod: Pod)
    requires Endpoint(pod).Some? && pod.containers[0].ports[0] >= 0
    ensures var e := Endpoint(pod).value;
            var i := LastIndexByte(e, ':');
            && i == |pod.podIP| && e[..i] == pod.podIP
            && (forall k :: i < k < |e| ==> IsDigit(e[k]))
            && DecimalValue(e[i + 1..]) == pod.containers[0].ports[0]
  {
    var e := Endpoint(pod).value;
    var port: nat := pod.containers[0].ports[0];
    var digits := NatToDecimal(port);
    assert e == pod.podIP + ":" + digits;
    assert e[|pod.podIP|] == ':';
    forall k | |pod.podIP| < k < |e|
      ensures e[k] != ':' && IsDigit(e[k])
    {
      assert e[k] == digits[k - |pod.podIP| - 1];
    }
    assert LastIndexByte(e, ':') == |pod.podIP|;
    assert e[|pod.podIP| + 1..] == digits;
    DecimalRoundTrip(port);
  }

  /** The gateway request a pod calls for: drop a terminating pod, add a running one. */
  function GatewayTask(pod: Pod): (t: Option<Task>)
    ensures t.Some? && t.value.verb == MethodDelete <==> pod.terminating
    ensures t.Some? && t.value.verb == MethodPost <==>
      !pod.terminating && pod.phase == PodRunning && Endpoint(pod).Some? && "sid" in pod.annotations
    ensures t.Some? && t.value.verb == MethodPost ==>
      t.value.req == Request(pod.annotations["sid"], Endpoint(pod).value)
    ensures pod.terminating ==> t.value.req == Request(Lookup(pod.annotations, "sid"), "")
  {
    if pod.terminating then Some(Task(Request(Lookup(pod.annotations, "sid"), ""), MethodDelete))
    else if pod.phase == PodRunning && Endpoint(pod).Some? && "sid" in pod.annotations
    then Some(Task(Request(pod.annotations["sid"], Endpoint(pod).value), MethodPost))
    else None
  }

  /** `after` differs from `before` at most in the status and version of `key`, whose phase may have become `phase`. */
  ghost predicate PhaseWrittenAtMost(before: map<string, WorkSpace>, after: map<string, WorkSpace>, key: string, phase: Phase) {
    && after.Keys == before.Keys
    && Cluster.AgreeExcept(before, after, key)
    && (key in before ==>
          after[key] == before[key]
          || (before[key].status.phase != phase
              && after[key] == before[key].(status := WorkSpaceStatus(phase), resourceVersion := after[key].resourceVersion)))
  }

  class PodReconciler {
    const cluster: Store
    const notifier: WorkspaceNotifier

    constructor (cluster: Store, notifier: WorkspaceNotifier)
      ensures this.cluster == cluster && this.notifier == notifier
    {
      this.cluster := cluster;
      this.notifier := notifier;
    }

    /** Set the phase of workspace `key` unless it is gone or already there; a failed write is only logged. */
    method UpdateWorkspaceStatus(key: string, phase: Phase)
      requires cluster.Valid()
      modifies cluster
      ensures cluster.Valid()
      ensures cluster.pods == old(cluster.pods) && cluster.pvcs == old(cluster.pvcs)
      ensures PhaseWrittenAtMost(old(cluster.workspaces), cluster.workspaces, key, phase)
      ensures key in cluster.workspaces && cluster.workspaces[key] != old(cluster.workspaces[key]) ==>
                cluster.workspaces[key].resourceVersion > old(cluster.revision)
    {
      var got := cluster.GetWorkSpace(key);
      if got.Err? {
        return;
      }
      var ws := got.value;
      if ws.status.phase == phase {
        return;
      }
      var _ := cluster.UpdateWorkSpaceStatus(ws.(status := WorkSpaceStatus(phase)));
    }

    /** One reconcile of the pod named `key`. */
    method Reconcile(key: string) returns (r: ReconcileResult)
      requires cluster.Valid() && notifier.Valid()
      modifies cluster, notifier
      ensures cluster.Valid() && notifier.Valid()
      ensures cluster.pods == old(cluster.pods) && cluster.pvcs == old(cluster.pvcs)
      ensures notifier.wsc == old(notifier.wsc) && notifier.nextChannel == old(notifier.nextChannel)
      // a failed read of the pod changes nothing and is retried
      ensures r.Requeue? && r.failure.Some? ==>
        && r.failure.value == ApiFailure(Unavailable)
        && cluster.workspaces == old(cluster.workspaces)
        && notifier.queue == old(notifier.queue) && notifier.closed == old(notifier.closed)
      // otherwise the workspace phase follows the pod ...
      ensures !(r.Requeue? && r.failure.Some?) ==>
        PhaseWrittenAtMost(old(cluster.workspaces), cluster.workspaces, key, ObservedPhase(Observed(old(cluster.pods), key)))
      // ... the gateway is told to drop a terminating pod and to add a running one ...
      ensures !(r.Requeue? && r.failure.Some?) ==>
        var obs := Observed(old(cluster.pods), key);
        notifier.queue ==
          if obs.Some? && GatewayTask(obs.value).Some?
          then WorkQueue.Add(old(notifier.queue), GatewayTask(obs.value).value)
          else old(notifier.queue)
      // ... and the waiters of a running workspace are woken
      ensures
        var obs := Observed(old(cluster.pods), key);
        if r.Done? && obs.Some? && GatewayTask(obs.value).Some? && GatewayTask(obs.value).value.verb == MethodPost
           && obs.value.annotations["sid"] in old(notifier.wsc)
        then notifier.closed == old(notifier.closed) + {old(notifier.wsc)[obs.value.annotations["sid"]]}
        else notifier.closed == old(notifier.closed)
      // a running pod without sid is retried without an error
      ensures !(r.Requeue? && r.failure.Some?) ==>
        var obs := Observed(old(cluster.pods), key);
        (r == Requeue(None) <==>
          obs.Some? && !obs.value.terminating && obs.value.phase == PodRunning
          && Endpoint(obs.value).Some? && "sid" !in obs.value.annotations)
      // panics: a running pod without a port, or a second wake-up of the same channel
      ensures !(r.Requeue? && r.failure.Some?) ==>
        var obs := Observed(old(cluster.pods), key);
        (r.Crashed? <==>
          && obs.Some? && !obs.value.terminating && obs.value.phase == PodRunning
          && (Endpoint(obs.value).None?
              || ("sid" in obs.value.annotations && obs.value.annotations["sid"] in old(notifier.wsc)
                  && old(notifier.wsc)[obs.value.annotations["sid"]] in old(notifier.closed))))
    {
      var got := cluster.GetPod(key);
      if got == Err(NotFound) {
        UpdateWorkspaceStatus(key, Stopped);
        return Done;
      }
      if got.Err? {
        return Requeue(Some(ApiFailure(got.error)));
      }
      var pod := got.value;
      if pod.terminating {
        notifier.Logout(Lookup(pod.annotations, "sid"));
        UpdateWorkspaceStatus(key, Stopping);
        return Done;
      }
      if pod.phase == PodRunning {
        UpdateWorkspaceStatus(key, Running);
        var endpoint := Endpoint(pod);
        if endpoint.None? {
          return Crashed;
        }
        if "sid" !in pod.annotations {
          return Requeue(None);
        }
        var sid := pod.annotations["sid"];
        notifier.Login(sid, endpoint.value);
        var ok := notifier.Notify(sid);
        if !ok {
          return Crashed;
        }
        return Done;
      }
      UpdateWorkspaceStatus(key, Starting);
      return Done;
    }
  }
}

=== FILE: quantity.dfy ===
/**
 * The textual form of a Kubernetes resource quantity ("2", "500m", "1Gi",
 * "1.5"), as resource.ParseQuantity accepts it: a non-empty text made of an
 * optional sign, a decimal number and an optional binary or decimal SI
 * suffix. The parser reads a number without digits before its point as 0,
 * so "m", "Gi", "-" and "." are quantities too.
 */
module Quantity {

  const BinarySuffixes: set<string> := {"Ki", "Mi", "Gi", "Ti", "Pi", "Ei"}
  const DecimalSuffixes: set<string> := {"n", "u", "m", "", "k", "M", "G", "T", "P", "E"}

  predicate AllDigits(s: string) {
    forall i :: 0 <= i < |s| ==> '0' <= s[i] <= '9'
  }

  /** digits, optionally followed by "." and digits; either run of digits may be empty. */
  predicate IsNumber(s: string) {
    AllDigits(s)
    || (exists k | 0 <= k < |s| :: s[k] == '.' && AllDigits(s[..k]) && AllDigits(s[k + 1..]))
  }

  predicate IsSignedNumber(s: string) {
    IsNumber(s) || (|s| > 0 && (s[0] == '+' || s[0] == '-') && IsNumber(s[1..]))
  }

  /** A quantity: a non-empty text, a signed number followed by one of the SI suffixes. */
  predicate IsQuantity(s: string) {
    s != "" && exists n | 0 <= n <= |s| :: IsSignedNumber(s[..n]) && (s[n..] in BinarySuffixes || s[n..] in DecimalSuffixes)
  }

  /** The fixed release-mode requests, a number of cores and a binary amount of memory, are quantities; the empty text is not. */
  lemma FixedRequestsParse()
    ensures IsQuantity("2") && IsQuantity("1Gi")
    ensures !IsQuantity("")
  {
    assert "2"[..1] == "2" && "2"[1..] == "";
    assert IsSignedNumber("2"[..1]) && "2"[1..] in DecimalSuffixes;
    assert IsSignedNumber("1Gi"[..1]) && "1Gi"[1..] in BinarySuffixes;
  }

  /** A suffix or a sign or a point alone is a quantity, which the parser reads as zero. */
  lemma DigitlessAmountsParse()
    ensures IsQuantity("m") && IsQuantity("Gi") && IsQuantity("-") && IsQuantity(".")
  {
    assert IsSignedNumber("m"[..0]) && "m"[0..] in DecimalSuffixes;
    assert IsSignedNumber("Gi"[..0]) && "Gi"[0..] in BinarySuffixes;
    assert IsNumber("-"[1..]);
    assert IsSignedNumber("-"[..1]) && "-"[1..] in DecimalSuffixes;
    assert "."[0] == '.' && AllDigits("."[..0]) && AllDigits("."[1..]);
    assert IsNumber("."[..1]) && "."[1..] in DecimalSuffixes;
  }

  /** Any whole number of cores, or of gibibytes, is a quantity. */
  lemma WholeAmountsParse(digits: string)
    requires digits != "" && AllDigits(digits)
    ensures IsQuantity(digits) && IsQuantity(digits + "Gi")
  {
    assert digits[..|digits|] == digits && digits[|digits|..] == "";
    var g := digits + "Gi";
    assert g[..|digits|] == digits && g[|digits|..] == "Gi";
  }
}

=== FILE: text.dfy ===
/**
 * The few Go library string functions the control plane relies on
 * (strings.LastIndexByte, strings.TrimSuffix, strings.Split(s, c)[0],
 * strconv.Itoa and filepath.Join), stated over `string` = `seq<char>`.
 */
module Text {

  /** strings.LastIndexByte: the index of the last `c` in `s`, or -1 when there is none. */
  function LastIndexByte(s: string, c: char): (i: int)
    ensures -1 <= i < |s|
    ensures i >= 0 ==> s[i] == c
    ensures forall j :: i < j < |s| ==> s[j] != c
    decreases |s|
  {
    if |s| == 0 then -1
    else if s[|s| - 1] == c then |s| - 1
    else LastIndexByte(s[..|s| - 1], c)
  }

  predicate HasSuffix(s: string, suffix: string) {
    |suffix| <= |s| && s[|s| - |suffix|..] == suffix
  }

  /** A tail of `s` that starts before `suffix` still ends with it. */
  lemma SuffixOfTail(s: string, k: nat, suffix: string)
    requires HasSuffix(s, suffix) && k <= |s| - |suffix|
    ensures HasSuffix(s[k..], suffix)
  {
    assert s[k..][|s| - k - |suffix|..] == s[|s| - |suffix|..];
  }

  /** strings.TrimSuffix: `s` without `suffix` when it ends with it, otherwise `s` itself. */
  function TrimSuffix(s: string, suffix: string): (r: string)
    ensures HasSuffix(s, suffix) ==> r + suffix == s
    ensures !HasSuffix(s, suffix) ==> r == s
  {
    if HasSuffix(s, suffix) then s[..|s| - |suffix|] else s
  }

  /** strings.Split(s, [c])[0]: the text before the first `c`, or all of `s` when there is none. */
  function BeforeFirst(s: string, c: char): (r: string)
    ensures r <= s
    ensures c !in r
    ensures |r| < |s| ==> s[|r|] == c
  {
    if |s| == 0 || s[0] == c then "" else [s[0]] + BeforeFirst(s[1..], c)
  }

  /** Cutting at the first `c` ignores everything after it. */
  lemma {:induction false} BeforeFirstAppend(s: string, c: char, rest: string)
    requires c !in s
    ensures BeforeFirst(s + [c] + rest, c) == s
  {
    if s != [] {
      assert (s + [c] + rest)[1..] == s[1..] + [c] + rest;
      BeforeFirstAppend(s[1..], c, rest);
    } else {
      assert (s + [c] + rest)[0] == c;
    }
  }

  predicate IsDigit(c: char) {
    '0' <= c <= '9'
  }

  function DigitChar(d: nat): (c: char)
    requires d < 10
    ensures IsDigit(c) && c as int - '0' as int == d
  {
    ('0' as int + d) as char
  }

  /** The decimal digits of `n`, most significant first, with no leading zeros. */
  function NatToDecimal(n: nat): (r: string)
    ensures 1 <= |r|
    ensures forall i :: 0 <= i < |r| ==> IsDigit(r[i])
    ensures |r| > 1 ==> r[0] != '0'
  {
    if n < 10 then [DigitChar(n)] else NatToDecimal(n / 10) + [DigitChar(n % 10)]
  }

  /** strconv.Itoa: the shortest decimal text of `n`, with a minus sign when it is negative. */
  function Itoa(n: int): (r: string)
    ensures n >= 0 ==>
      && (forall i :: 0 <= i < |r| ==> IsDigit(r[i]))
      && DecimalValue(r) == n
      && 1 <= |r| && (|r| > 1 ==> r[0] != '0')
    ensures n < 0 ==>
      && 2 <= |r| && r[0] == '-' && r[1] != '0'
      && (forall i :: 1 <= i < |r| ==> IsDigit(r[i]))
      && DecimalValue(r[1..]) == -n
  {
    if n < 0 then
      var digits := NatToDecimal(-n);
      DecimalRoundTrip(-n);
      assert ("-" + digits)[1..] == digits;
      "-" + digits
    else
      DecimalRoundTrip(n);
      NatToDecimal(n)
  }

  /** The number a string of decimal digits denotes. */
  function DecimalValue(s: string): int
    requires forall i :: 0 <= i < |s| ==> IsDigit(s[i])
  {
    if s == [] then 0 else DecimalValue(s[..|s| - 1]) * 10 + (s[|s| - 1] as int - '0' as int)
  }

  /** Reading back the digits Itoa writes for a natural number yields that number. */
  lemma {:induction false} DecimalRoundTrip(n: nat)
    ensures DecimalValue(NatToDecimal(n)) == n
  {
    if n >= 10 {
      var s := NatToDecimal(n);
      assert s[..|s| - 1] == NatToDecimal(n / 10);
      DecimalRoundTrip(n / 10);
    }
  }

  /** `s` without the slashes at its end, keeping a lone "/". */
  function TrimTrailingSlashes(s: string): (r: string)
    ensures r <= s
    ensures |r| <= 1 || r[|r| - 1] != '/'
    ensures |s| > 0 ==> |r| > 0
    ensures forall k :: |r| <= k < |s| ==> s[k] == '/'
  {
    if |s| > 1 && s[|s| - 1] == '/' then TrimTrailingSlashes(s[..|s| - 1]) else s
  }

  /** `s` without the slashes at its start. */
  function TrimLeadingSlashes(s: string): (r: string)
    ensures |r| <= |s| && r == s[|s| - |r|..]
    ensures r == [] || r[0] != '/'
    ensures forall k :: 0 <= k < |s| - |r| ==> s[k] == '/'
  {
    if |s| > 0 && s[0] == '/' then TrimLeadingSlashes(s[1..]) else s
  }

  /**
   * The directory above `dir`, a path written without a final slash, as
   * filepath.Clean(dir + "/..") gives it: "." above a relative name, the
   * root above the root and above a top-level name.
   */
  function ParentDir(dir: string): (r: string)
    requires dir != ""
    ensures '/' !in dir ==> r == "."
    ensures dir[0] == '/' && '/' !in dir[1..] ==> r == "/"
    ensures '/' in dir[1..] ==> |r| > 0 && r < dir && dir[|r|] == '/' && '/' !in dir[|r| + 1..]
  {
    var i := LastIndexByte(dir, '/');
    if i < 0 then "."
    else if i == 0 then "/"
    else
      assert '/' !in dir[i + 1..] by {
        forall k | i + 1 <= k < |dir| ensures dir[k] != '/' { }
      }
      dir[..i]
  }

  /**
   * filepath.Join of two elements, for elements that contain no "." or ".."
   * segment other than a whole second element, and no repeated or final
   * slash inside the second element: empty elements are ignored, exactly one
   * slash separates the two, and a second element "." or ".." is cleaned
   * away.
   */
  function Join(base: string, elem: string): (r: string)
    ensures r == "" <==> base == "" && elem == ""
    ensures base != "" && base[0] == '/' ==> r != "" && r[0] == '/'
  {
    var b := TrimTrailingSlashes(base);
    var e := TrimLeadingSlashes(elem);
    if e == "" then (if b == "" && elem != "" then "/" else b)
    else if b == "" then (if elem[0] != '/' then e else if e == "." || e == ".." then "/" else "/" + e)
    else if e == "." then b
    else if e == ".." then ParentDir(b)
    else if b == "/" then "/" + e
    else b + "/" + e
  }

  /** Joining onto an empty directory keeps a rooted element rooted. */
  lemma JoinOntoEmpty(elem: string)
    requires |elem| > 1 && elem[0] == '/' && elem[1] != '/'
    requires elem != "/." && elem != "/.."
    ensures Join("", elem) == elem
  {
    assert TrimLeadingSlashes(elem[1..]) == elem[1..];
    assert [elem[0]] + elem[1..] == elem;
  }

  /** Joining "." onto a directory names that directory, and ".." the one above it. */
  lemma JoinDots(dir: string)
    requires |dir| > 1 && dir[|dir| - 1] != '/'
    ensures Join(dir, ".") == dir
    ensures Join(dir, "..") == ParentDir(dir)
  {
    assert TrimTrailingSlashes(dir) == dir;
    assert TrimLeadingSlashes(".") == ".";
    assert TrimLeadingSlashes("..") == "..";
  }

  /** Joining a slash-free name onto a directory written without a final slash. */
  lemma JoinName(dir: string, name: string)
    requires |dir| > 1 && dir[|dir| - 1] != '/'
    requires name != "" && name[0] != '/' && name != "." && name != ".."
    ensures Join(dir, name) == dir + "/" + name
  {
  }

  /** Joining an absolute element whose name starts right after its one slash onto a directory below the root. */
  lemma JoinAbsolute(base: string, elem: string)
    requires |TrimTrailingSlashes(base)| > 1
    requires |elem| > 1 && elem[0] == '/' && elem[1] != '/'
    requires elem != "/." && elem != "/.."
    ensures Join(base, elem) == TrimTrailingSlashes(base) + elem
  {
    var b := TrimTrailingSlashes(base);
    var e := elem[1..];
    assert TrimLeadingSlashes(e) == e;
    assert TrimLeadingSlashes(elem) == e;
    assert e != "." && e != ".." by {
      assert elem == "/" + e;
    }
    assert b != "" && b != "/";
    assert Join(base, elem) == b + "/" + e;
    assert "/" + e == elem;
  }
}

=== FILE: workqueue.dfy ===
/**
 * The client-go work queue the notifier hands its gateway requests to
 * (workqueue.Type). A task waits in `items` at most once; `dirty` holds the
 * tasks added and not yet handed out; `processing` holds the tasks a worker
 * holds until it calls Done. A task added while it is being processed is
 * queued again only when it is done.
 */
module WorkQueue {

  datatype Queue<T> = Queue(items: seq<T>, dirty: set<T>, processing: set<T>, shuttingDown: bool)

  /** No task waits twice, and a task waits exactly when it is dirty and not being processed. */
  ghost predicate Valid<T(!new)>(q: Queue<T>) {
    && (forall i, j :: 0 <= i < j < |q.items| ==> q.items[i] != q.items[j])
    && (forall t :: t in q.items <==> t in q.dirty && t !in q.processing)
  }

  function Empty<T(!new)>(): (q: Queue<T>)
    ensures Valid(q) && q.items == []
  {
    Queue([], {}, {}, false)
  }

  /** Add: ignored when shutting down or already dirty; queued unless being processed. */
  function Add<T>(q: Queue<T>, t: T): (r: Queue<T>)
    ensures r.processing == q.processing && r.shuttingDown == q.shuttingDown
    ensures !q.shuttingDown ==> t in r.dirty
    ensures q.items <= r.items && |r.items| <= |q.items| + 1
    ensures r.dirty == if q.shuttingDown then q.dirty else q.dirty + {t}
    ensures r.items == q.items || (r.items == q.items + [t] && !q.shuttingDown && t !in q.dirty && t !in q.processing)
  {
    if q.shuttingDown || t in q.dirty then q
    else if t in q.processing then q.(dirty := q.dirty + {t})
    else q.(items := q.items + [t], dirty := q.dirty + {t})
  }

  /** Get: the first waiting task, now being processed and no longer dirty. */
  function Get<T>(q: Queue<T>): (r: (T, Queue<T>))
    requires |q.items| > 0
    ensures r.0 == q.items[0] && r.1.items == q.items[1..]
    ensures r.1.processing == q.processing + {r.0} && r.1.dirty == q.dirty - {r.0}
  {
    (q.items[0], q.(items := q.items[1..], processing := q.processing + {q.items[0]}, dirty := q.dirty - {q.items[0]}))
  }

  /** Done: the task is no longer being processed; if it was added meanwhile it waits again. */
  function Done<T>(q: Queue<T>, t: T): (r: Queue<T>)
    ensures t !in r.processing && r.dirty == q.dirty
    ensures t in q.dirty ==> t in r.items
    ensures r.processing == q.processing - {t} && r.shuttingDown == q.shuttingDown
    ensures r.items == if t in q.dirty then q.items + [t] else q.items
  {
    var q' := q.(processing := q.processing - {t});
    if t in q.dirty then q'.(items := q.items + [t]) else q'
  }

  function ShutDown<T>(q: Queue<T>): (r: Queue<T>)
    ensures r.shuttingDown && r.items == q.items
    ensures r.dirty == q.dirty && r.processing == q.processing
  {
    q.(shuttingDown := true)
  }

  /** Every operation keeps the queue well formed. */
  lemma {:induction false} OperationsKeepValid<T(!new)>(q: Queue<T>, t: T)
    requires Valid(q)
    ensures Valid(Add(q, t))
    ensures |q.items| > 0 ==> Valid(Get(q).1)
    ensures t in q.processing ==> Valid(Done(q, t))
    ensures Valid(ShutDown(q))
  {
    if |q.items| > 0 {
      var r := Get(q).1;
      forall u
        ensures u in r.items <==> u in r.dirty && u !in r.processing
      {
        if u == q.items[0] {
          assert u !in r.items by {
            forall k | 0 <= k < |r.items| ensures r.items[k] != u {
              assert r.items[k] == q.items[k + 1];
            }
          }
        } else if u in r.items {
          var k :| 0 <= k < |r.items| && r.items[k] == u;
          assert q.items[k + 1] == u;
        }
      }
    }
  }

  /** Adding a task twice is adding it once. */
  lemma AddIdempotent<T>(q: Queue<T>, t: T)
    ensures Add(Add(q, t), t) == Add(q, t)
  {
  }

  /** A task neither waiting nor being processed is queued exactly once by Add. */
  lemma {:induction false} AddQueuesOnce<T(!new)>(q: Queue<T>, t: T)
    requires Valid(q) && !q.shuttingDown && t !in q.processing
    ensures multiset(Add(q, t).items)[t] == 1
  {
    if t in q.dirty {
      var k :| 0 <= k < |q.items| && q.items[k] == t;
      CountOfDistinct(q.items, k);
    } else {
      assert t !in q.items;
      assert multiset(q.items)[t] == 0;
      assert multiset(q.items + [t]) == multiset(q.items) + multiset{t};
    }
  }

  /** In a sequence without repetitions, an element at position k occurs once. */
  lemma {:induction false} CountOfDistinct<T>(s: seq<T>, k: nat)
    requires k < |s|
    requires forall i, j :: 0 <= i < j < |s| ==> s[i] != s[j]
    ensures multiset(s)[s[k]] == 1
  {
    if k == |s| - 1 {
      var front := s[..|s| - 1];
      assert s == front + [s[k]];
      assert s[k] !in front by {
        forall i | 0 <= i < |front| ensures front[i] != s[k] {
          assert front[i] == s[i];
        }
      }
      assert multiset(s) == multiset(front) + multiset{s[k]};
    } else {
      var front := s[..|s| - 1];
      assert s == front + [s[|s| - 1]];
      assert front[k] == s[k];
      CountOfDistinct(front, k);
      assert multiset(s) == multiset(front) + multiset{s[|s| - 1]};
    }
  }

  /** The calls made on a queue, in order. */
  datatype Op<T> = AddOp(task: T) | GetOp | DoneOp(task: T)

  function Apply<T>(q: Queue<T>, ops: seq<Op<T>>): Queue<T>
    decreases |ops|
  {
    if ops == [] then q
    else
      var next :=
        match ops[0]
        case AddOp(t) => Add(q, t)
        case GetOp => if |q.items| > 0 then Get(q).1 else q
        case DoneOp(t) => Done(q, t);
      Apply(next, ops[1..])
  }

  /**
   * A task that a worker holds and never marks done is never handed out
   * again: whatever is added, taken or finished meanwhile, it does not wait in
   * the queue and stays in processing, so every later Add of it is absorbed.
   */
  lemma {:induction false} HeldTaskNeverRequeued<T>(q: Queue<T>, t: T, ops: seq<Op<T>>)
    requires t in q.processing && t !in q.items
    requires DoneOp(t) !in ops
    ensures t in Apply(q, ops).processing
    ensures t !in Apply(q, ops).items
    decreases |ops|
  {
    if ops != [] {
      assert ops[0] in ops;
      var next :=
        match ops[0]
        case AddOp(u) => Add(q, u)
        case GetOp => if |q.items| > 0 then Get(q).1 else q
        case DoneOp(u) => Done(q, u);
      assert t !in next.items by {
        if ops[0].GetOp? && |q.items| > 0 {
          forall k | 0 <= k < |next.items| ensures next.items[k] != t {
            assert next.items[k] == q.items[k + 1];
          }
        }
      }
      assert DoneOp(t) !in ops[1..] by {
        forall k | 0 <= k < |ops[1..]| ensures ops[1..][k] != DoneOp(t) {
          assert ops[1..][k] == ops[k + 1];
        }
      }
      HeldTaskNeverRequeued(next, t, ops[1..]);
    }
  }
}

=== FILE: workspace_controller.dfy ===
/**
 * The WorkSpace controller: on every event for a WorkSpace it drives the
 * cluster towards the spec. A workspace whose command is Start gets a
 * persistent volume claim and then a pod; one whose command is Stop loses its
 * pod and keeps its claim; a workspace that no longer exists loses both.
 */
module WorkspaceController {
  import opened Common
  import opened Text
  import opened Quantity
  import opened WorkspaceTypes
  import opened Cluster

  const ModeRelease := "release"
  const ModeDev := "dev"

  const VolumeName := "volume-user-workspace"
  const ClonerName := "git-cloner"
  const ClonerImage := "registry.cn-hangzhou.aliyuncs.com/mangohow-apps/git-cloner:v1.0"
  const PodLabels: map<string, string> := map["app" := "cloud-ide"]

  /** The CPU and memory every release-mode workspace container requests. */
  const RequestedCpu := "2"
  const RequestedMemory := "1Gi"

  /** The package settings the process fills from its flags. */
  datatype Config = Config(mode: string, dynamicStorageEnabled: bool, storageClassName: string)

  /** The value of the first variable called `name`, if any. */
  function EnvValue(env: seq<EnvVar>, name: string): (v: Option<string>)
    ensures v.Some? <==> exists i :: 0 <= i < |env| && env[i].name == name
  {
    if env == [] then None
    else if env[0].name == name then Some(env[0].value)
    else EnvValue(env[1..], name)
  }

  /** The workspace directory inside the volume, where the editor opens by default. */
  function WorkspaceDir(mountPath: string): string {
    Join(mountPath, "/workspace")
  }

  /** The workspace directory sits right below the mount path with its final slashes dropped, unless that is the root. */
  lemma WorkspaceDirBelowMount(mountPath: string)
    requires |TrimTrailingSlashes(mountPath)| > 1
    ensures WorkspaceDir(mountPath) == TrimTrailingSlashes(mountPath) + "/workspace"
  {
    JoinAbsolute(mountPath, "/workspace");
  }

  /** The directory a clone of `url` gets: its last path segment without ".git". */
  function RepoDirName(url: string): (name: string)
    ensures '/' !in name
  {
    var idx := LastIndexByte(url, '/') + 1;
    var last := url[idx..];
    assert '/' !in last by {
      forall k | 0 <= k < |last| ensures last[k] != '/' {
        assert last[k] == url[idx + k];
      }
    }
    var name := TrimSuffix(last, ".git");
    assert name <= last;
    name
  }

  /** A clone URL ending in "/<name>.git" is cloned into the directory <name>. */
  lemma RepoDirNameOfCloneUrl(base: string, name: string)
    requires '/' !in name
    ensures RepoDirName(base + "/" + name + ".git") == name
  {
    var url := base + "/" + name + ".git";
    var tail := name + ".git";
    assert url[|base|] == '/';
    assert url[|base| + 1..] == tail;
    forall j | |base| < j < |url|
      ensures url[j] != '/'
    {
      assert url[j] == tail[j - |base| - 1];
    }
    assert LastIndexByte(url, '/') == |base|;
    assert HasSuffix(tail, ".git");
  }

  /** Where the init container clones the repository. */
  function LocalPath(spec: WorkSpaceSpec): string {
    Join(WorkspaceDir(spec.mountPath), RepoDirName(spec.gitRepository))
  }

  /** The directory the editor opens: the clone when there is a repository, else the workspace directory. */
  function OpenDir(spec: WorkSpaceSpec): string {
    if spec.gitRepository == "" then WorkspaceDir(spec.mountPath) else LocalPath(spec)
  }

  /** For a mount path below the root and a clone URL "<base>/<name>.git", the editor opens <mount>/workspace/<name>. */
  lemma ClonedRepositoryOpened(spec: WorkSpaceSpec, base: string, name: string)
    requires |TrimTrailingSlashes(spec.mountPath)| > 1
    requires spec.gitRepository == base + "/" + name + ".git"
    requires name != "" && '/' !in name && name != "." && name != ".."
    ensures OpenDir(spec) == TrimTrailingSlashes(spec.mountPath) + "/workspace/" + name
  {
    var mp := TrimTrailingSlashes(spec.mountPath);
    var dir := mp + "/workspace";
    calc {
      OpenDir(spec);
      { RepoDirNameOfCloneUrl(base, name); }
      Join(WorkspaceDir(spec.mountPath), name);
      { WorkspaceDirBelowMount(spec.mountPath); }
      Join(dir, name);
      { assert dir[|dir| - 1] == 'e'; JoinName(dir, name); }
      dir + "/" + name;
      { assert "/workspace" + "/" == "/workspace/"; }
      mp + "/workspace/" + name;
    }
  }

  /**
   * A clone URL "<base>/..git" or "<base>/...git" names the directory "." or
   * "..": the editor then opens the workspace directory itself, or the mount
   * path above it.
   */
  lemma DotRepositoryOpened(spec: WorkSpaceSpec, base: string, name: string)
    requires |TrimTrailingSlashes(spec.mountPath)| > 1
    requires spec.gitRepository == base + "/" + name + ".git"
    requires name == "." || name == ".."
    ensures name == "." ==> OpenDir(spec) == TrimTrailingSlashes(spec.mountPath) + "/workspace"
    ensures name == ".." ==> OpenDir(spec) == TrimTrailingSlashes(spec.mountPath)
  {
    var mp := TrimTrailingSlashes(spec.mountPath);
    var dir := mp + "/workspace";
    calc {
      OpenDir(spec);
      { RepoDirNameOfCloneUrl(base, name); }
      Join(WorkspaceDir(spec.mountPath), name);
      { WorkspaceDirBelowMount(spec.mountPath); }
      Join(dir, name);
    }
    assert dir[|dir| - 1] == 'e';
    JoinDots(dir);
    if name == ".." {
      WorkspaceParent(mp);
    }
  }

  /** The directory above the workspace directory is the mount path. */
  lemma WorkspaceParent(mp: string)
    requires |mp| > 1
    ensures ParentDir(mp + "/workspace") == mp
  {
    var dir := mp + "/workspace";
    assert dir[|mp|] == '/';
    forall k | |mp| < k < |dir|
      ensures dir[k] != '/'
    {
      assert dir[k] == "/workspace"[k - |mp|];
    }
    assert LastIndexByte(dir, '/') == |mp|;
    assert dir[..|mp|] == mp;
  }

  /** MustParse of the spec's CPU or memory panics in release mode when either does not parse. */
  predicate ConstructPodPanics(spec: WorkSpaceSpec, config: Config) {
    config.mode == ModeRelease && !(IsQuantity(spec.cpu) && IsQuantity(spec.memory))
  }

  /**
   * The workspace pod: one editor container serving the workspace port with the
   * claim mounted at the mount path and OPEN_DIR naming the directory to open;
   * in release mode it requests 2 CPUs and 1Gi and is limited to the spec's CPU
   * and memory; with a repository, an init container first clones it there.
   * None stands for the panic of MustParse.
   */
  function ConstructPod(ws: WorkSpace, config: Config): (r: Option<Pod>)
    ensures r.None? <==> ConstructPodPanics(ws.spec, config)
    ensures r.Some? ==> r.value.name == ws.name && r.value.owner == ws.name
  {
    if ConstructPodPanics(ws.spec, config) then None
    else if ws.spec.gitRepository == "" then Some(WorkspacePod(ws, [], Editor(ws, config, WorkspaceDir(ws.spec.mountPath))))
    // the editor built with the workspace directory then has OPEN_DIR rewritten to the clone
    else Some(WorkspacePod(ws, [Cloner(ws.spec, LocalPath(ws.spec))], Editor(ws, config, LocalPath(ws.spec))))
  }

  /** The claim mounted at the mount path. */
  function WorkspaceMounts(spec: WorkSpaceSpec): seq<VolumeMount> {
    [VolumeMount(VolumeName, spec.mountPath)]
  }

  /** The editor container: it serves the workspace port and opens `openDir`; release mode sets its resources. */
  function Editor(ws: WorkSpace, config: Config, openDir: string): Container {
    var resources :=
      if config.mode == ModeRelease
      then Some(Resources(ResourceList(RequestedCpu, RequestedMemory), ResourceList(ws.spec.cpu, ws.spec.memory)))
      else None;
    Container(ws.name, ws.spec.image, "", [ws.spec.port], WorkspaceMounts(ws.spec), [EnvVar("OPEN_DIR", openDir)], resources)
  }

  /** The init container that clones the repository into `localPath`. */
  function Cloner(spec: WorkSpaceSpec, localPath: string): Container {
    Container(ClonerName, ClonerImage, spec.mountPath, [], WorkspaceMounts(spec),
              [EnvVar("REPO_URL", spec.gitRepository), EnvVar("LOCAL_PATH", localPath)], None)
  }

  function WorkspacePod(ws: WorkSpace, initContainers: seq<Container>, editor: Container): Pod {
    Pod(ws.name, map["sid" := ws.spec.sid, "uid" := ws.spec.uid], PodLabels, ws.name,
        [Volume(VolumeName, ws.name)], initContainers, [editor], false, PodPending, "")
  }

  /**
   * What the workspace pod promises: the editor serves the workspace port with
   * the workspace image and mounts the claim; the sid and uid annotations carry
   * the workspace's ids; resources are set exactly in release mode.
   */
  lemma ConstructPodShape(ws: WorkSpace, config: Config)
    requires !ConstructPodPanics(ws.spec, config)
    ensures var pod := ConstructPod(ws, config).value;
      && pod.name == ws.name && pod.owner == ws.name
      && Lookup(pod.annotations, "sid") == ws.spec.sid && Lookup(pod.annotations, "uid") == ws.spec.uid
      && pod.volumes == [Volume(VolumeName, ws.name)]
      && |pod.containers| == 1 && pod.containers[0].ports == [ws.spec.port]
      && pod.containers[0].image == ws.spec.image
      && pod.containers[0].mounts == [VolumeMount(VolumeName, ws.spec.mountPath)]
      && (pod.containers[0].resources.Some? <==> config.mode == ModeRelease)
      && (pod.containers[0].resources.Some? ==>
            && pod.containers[0].resources.value.requests == ResourceList(RequestedCpu, RequestedMemory)
            && pod.containers[0].resources.value.limits == ResourceList(ws.spec.cpu, ws.spec.memory))
      && !pod.terminating && pod.phase == PodPending
  {
    var pod := ConstructPod(ws, config).value;
    assert pod.annotations == map["sid" := ws.spec.sid, "uid" := ws.spec.uid];
    assert pod.containers[0] == Editor(ws, config, pod.containers[0].env[0].value);
  }

  /**
   * The editor opens OpenDir; the init container exists exactly when there is
   * a repository, mounts the same claim, and clones it into that directory.
   */
  lemma ConstructPodClone(ws: WorkSpace, config: Config)
    requires !ConstructPodPanics(ws.spec, config)
    ensures var pod := ConstructPod(ws, config).value;
      && |pod.containers| == 1
      && EnvValue(pod.containers[0].env, "OPEN_DIR") == Some(OpenDir(ws.spec))
      && (pod.initContainers == [] <==> ws.spec.gitRepository == "")
      && (ws.spec.gitRepository != "" ==>
            && |pod.initContainers| == 1
            && pod.initContainers[0].workingDir == ws.spec.mountPath
            && pod.initContainers[0].mounts == pod.containers[0].mounts
            && EnvValue(pod.initContainers[0].env, "REPO_URL") == Some(ws.spec.gitRepository)
            && EnvValue(pod.initContainers[0].env, "LOCAL_PATH") == EnvValue(pod.containers[0].env, "OPEN_DIR"))
  {
    var spec := ws.spec;
    var pod := ConstructPod(ws, config).value;
    if spec.gitRepository == "" {
      assert pod == WorkspacePod(ws, [], Editor(ws, config, WorkspaceDir(spec.mountPath)));
    } else {
      var local := LocalPath(spec);
      assert pod == WorkspacePod(ws, [Cloner(spec, local)], Editor(ws, config, local));
      var env := pod.initContainers[0].env;
      assert env == [EnvVar("REPO_URL", spec.gitRepository), EnvVar("LOCAL_PATH", local)];
      assert EnvValue(env, "LOCAL_PATH") == EnvValue(env[1..], "LOCAL_PATH");
    }
    assert pod.containers[0].env == [EnvVar("OPEN_DIR", OpenDir(spec))];
  }

  /**
   * The workspace claim: named after the workspace, ReadWriteMany, requesting
   * and limited to the spec's storage, of the configured storage class when
   * dynamic provisioning is on. Fails when the storage does not parse.
   */
  function ConstructPvc(ws: WorkSpace, config: Config): (r: Result<Pvc, Failure>)
    ensures r.Err? <==> !IsQuantity(ws.spec.storage)
    ensures r.Err? ==> r.error == BadQuantity
    ensures r.Ok? ==>
      && r.value.name == ws.name && r.value.owner == ws.name
      && r.value.accessModes == ["ReadWriteMany"]
      && r.value.storageRequest == r.value.storageLimit == ws.spec.storage
      && (r.value.storageClassName.Some? <==> config.dynamicStorageEnabled)
      && (config.dynamicStorageEnabled ==> r.value.storageClassName == Some(config.storageClassName))
  {
    if !IsQuantity(ws.spec.storage) then Err(BadQuantity)
    else
      var storageClass := if config.dynamicStorageEnabled then Some(config.storageClassName) else None;
      Ok(Pvc(ws.name, ws.name, ["ReadWriteMany"], ws.spec.storage, ws.spec.storage, storageClass))
  }

  /** The pod of a workspace mounts exactly the claim created for that workspace. */
  lemma PodMountsWorkspaceClaim(ws: WorkSpace, config: Config)
    requires ConstructPod(ws, config).Some? && ConstructPvc(ws, config).Ok?
    ensures var pod := ConstructPod(ws, config).value;
            var pvc := ConstructPvc(ws, config).value;
            |pod.volumes| == 1 && pod.volumes[0].claimName == pvc.name
            && pod.containers[0].mounts[0].volume == pod.volumes[0].name
  {
  }

  /** How one step of a reconcile ended; `created` says this step's own create stored the object. */
  datatype Step = Completed(created: bool) | Failed(failure: Failure) | Panicked

  class WorkSpaceReconciler {
    const cluster: Store
    const config: Config

    constructor (cluster: Store, config: Config)
      ensures this.cluster == cluster && this.config == config
    {
      this.cluster := cluster;
      this.config := config;
    }

    /** Whether a pod named `key` exists; a read error other than NotFound is returned. */
    method CheckPodExist(key: string) returns (exist: bool, err: Option<ApiError>)
      ensures err.None? ==> (exist <==> key in cluster.pods)
      ensures err.Some? ==> !exist && err.value == Unavailable
    {
      var got := cluster.GetPod(key);
      if got.Err? {
        if got.error == NotFound {
          return false, None;
        }
        return false, Some(got.error);
      }
      return true, None;
    }

    method CheckPvcExist(key: string) returns (exist: bool, err: Option<ApiError>)
      ensures err.None? ==> (exist <==> key in cluster.pvcs)
      ensures err.Some? ==> !exist && err.value == Unavailable
    {
      var got := cluster.GetPvc(key);
      if got.Err? {
        if got.error == NotFound {
          return false, None;
        }
        return false, Some(got.error);
      }
      return true, None;
    }

    /** Create the workspace pod unless a pod named `key` exists; losing a create race counts as success. */
    method CreatePod(ws: WorkSpace, key: string) returns (step: Step)
      requires cluster.Valid()
      modifies cluster
      ensures cluster.Valid()
      ensures cluster.workspaces == old(cluster.workspaces) && cluster.pvcs == old(cluster.pvcs)
      ensures cluster.revision == old(cluster.revision)
      ensures AgreeExcept(old(cluster.pods), cluster.pods, ws.name)
      ensures key in old(cluster.pods) || ws.name in old(cluster.pods) ==> cluster.pods == old(cluster.pods)
      ensures step.Completed? ==> key in old(cluster.pods) || ws.name in cluster.pods
      ensures step == Completed(true) ==>
        ConstructPod(ws, config).Some? && cluster.pods == old(cluster.pods)[ws.name := ConstructPod(ws, config).value]
      ensures step.Panicked? ==> ConstructPodPanics(ws.spec, config) && cluster.pods == old(cluster.pods)
      ensures step.Failed? ==> step.failure == ApiFailure(Unavailable) && cluster.pods == old(cluster.pods)
    {
      var exist, err := CheckPodExist(key);
      if err.Some? {
        return Failed(ApiFailure(err.value));
      }
      if exist {
        return Completed(false);
      }
      var pod := ConstructPod(ws, config);
      if pod.None? {
        return Panicked;
      }
      assert pod.value.name == ws.name;
      var created := cluster.CreatePod(pod.value);
      if created.Some? {
        if created.value == AlreadyExists {
          return Completed(false);
        }
        return Failed(ApiFailure(created.value));
      }
      return Completed(true);
    }

    /** Create the workspace claim unless a claim named `key` exists; losing a create race counts as success. */
    method CreatePvc(ws: WorkSpace, key: string) returns (step: Step)
      requires cluster.Valid()
      modifies cluster
      ensures cluster.Valid()
      ensures cluster.workspaces == old(cluster.workspaces) && cluster.pods == old(cluster.pods)
      ensures cluster.revision == old(cluster.revision)
      ensures AgreeExcept(old(cluster.pvcs), cluster.pvcs, ws.name)
      ensures key in old(cluster.pvcs) || ws.name in old(cluster.pvcs) ==> cluster.pvcs == old(cluster.pvcs)
      ensures step.Completed? ==> key in old(cluster.pvcs) || ws.name in cluster.pvcs
      ensures step == Completed(true) ==>
        ConstructPvc(ws, config).Ok? && cluster.pvcs == old(cluster.pvcs)[ws.name := ConstructPvc(ws, config).value]
      ensures !step.Panicked?
      ensures step.Failed? ==> cluster.pvcs == old(cluster.pvcs)
      ensures step.Failed? ==> step.failure == ApiFailure(Unavailable) || (step.failure == BadQuantity && !IsQuantity(ws.spec.storage))
    {
      var exist, err := CheckPvcExist(key);
      if err.Some? {
        return Failed(ApiFailure(err.value));
      }
      if exist {
        return Completed(false);
      }
      var pvc := ConstructPvc(ws, config);
      if pvc.Err? {
        return Failed(pvc.error);
      }
      var created := cluster.CreatePvc(pvc.value);
      if created.Some? {
        if created.value == AlreadyExists {
          return Completed(false);
        }
        return Failed(ApiFailure(created.value));
      }
      return Completed(true);
    }

    /** Delete the pod named `key` if there is one; a pod already gone counts as success. */
    method DeletePod(key: string) returns (err: Option<ApiError>)
      requires cluster.Valid()
      modifies cluster
      ensures cluster.Valid()
      ensures cluster.workspaces == old(cluster.workspaces) && cluster.pvcs == old(cluster.pvcs)
      ensures cluster.revision == old(cluster.revision)
      ensures err.None? ==> cluster.pods == old(cluster.pods) - {key}
      ensures err.Some? ==> err.value == Unavailable && cluster.pods == old(cluster.pods)
    {
      var exist, checkErr := CheckPodExist(key);
      if checkErr.Some? {
        return checkErr;
      }
      if !exist {
        return None;
      }
      err := cluster.DeletePod(key);
      if err == Some(NotFound) {
        return None;
      }
    }

    /** Delete the claim named `key` if there is one; a claim already gone counts as success. */
    method DeletePvc(key: string) returns (err: Option<ApiError>)
      requires cluster.Valid()
      modifies cluster
      ensures cluster.Valid()
      ensures cluster.workspaces == old(cluster.workspaces) && cluster.pods == old(cluster.pods)
      ensures cluster.revision == old(cluster.revision)
      ensures err.None? ==> cluster.pvcs == old(cluster.pvcs) - {key}
      ensures err.Some? ==> err.value == Unavailable && cluster.pvcs == old(cluster.pvcs)
    {
      var exist, checkErr := CheckPvcExist(key);
      if checkErr.Some? {
        return checkErr;
      }
      if !exist {
        return None;
      }
      err := cluster.DeletePvc(key);
      if err == Some(NotFound) {
        return None;
      }
    }

    /**
     * One reconcile of the WorkSpace named `key`. The ghost results say
     * whether this reconcile's own create stored the pod or the claim.
     */
    method Reconcile(key: string) returns (r: ReconcileResult, ghost podCreated: bool, ghost pvcCreated: bool)
      requires cluster.Valid()
      modifies cluster
      ensures cluster.Valid()
      ensures cluster.workspaces == old(cluster.workspaces) && cluster.revision == old(cluster.revision)
      // only the pod and the claim named after the workspace are touched
      ensures AgreeExcept(old(cluster.pods), cluster.pods, key)
      ensures AgreeExcept(old(cluster.pvcs), cluster.pvcs, key)
      // a deleted workspace loses its pod, then its claim
      ensures key !in old(cluster.workspaces) ==>
        && (r.Done? ==> key !in cluster.pods && key !in cluster.pvcs)
        && (key in cluster.pods ==> cluster.pvcs == old(cluster.pvcs))
        && (cluster.pods != old(cluster.pods) ==> key !in cluster.pods)
        && (cluster.pvcs != old(cluster.pvcs) ==> key !in cluster.pvcs)
      // Start: the claim first, then the pod, as the builders make them; what exists is left alone
      ensures key in old(cluster.workspaces) && old(cluster.workspaces[key]).spec.command == Start ==>
        && (r.Done? ==> key in cluster.pvcs && key in cluster.pods)
        && (key !in cluster.pvcs ==> cluster.pods == old(cluster.pods))
        && (key in old(cluster.pods) ==> cluster.pods == old(cluster.pods))
        && (key in old(cluster.pvcs) ==> cluster.pvcs == old(cluster.pvcs))
        && (r.Crashed? ==> ConstructPodPanics(old(cluster.workspaces[key]).spec, config))
        && (r == Requeue(Some(BadQuantity)) ==> !IsQuantity(old(cluster.workspaces[key]).spec.storage))
      ensures pvcCreated ==>
        && key in old(cluster.workspaces) && old(cluster.workspaces[key]).spec.command == Start
        && ConstructPvc(old(cluster.workspaces[key]), config).Ok?
        && cluster.pvcs == old(cluster.pvcs)[key := ConstructPvc(old(cluster.workspaces[key]), config).value]
      ensures podCreated ==>
        && key in old(cluster.workspaces) && old(cluster.workspaces[key]).spec.command == Start
        && ConstructPod(old(cluster.workspaces[key]), config).Some?
        && cluster.pods == old(cluster.pods)[key := ConstructPod(old(cluster.workspaces[key]), config).value]
      // Stop: the pod goes, the claim (and the user's files) stay
      ensures key in old(cluster.workspaces) && old(cluster.workspaces[key]).spec.command == Stop ==>
        && cluster.pvcs == old(cluster.pvcs)
        && (r.Done? ==> key !in cluster.pods)
        && (cluster.pods != old(cluster.pods) ==> key !in cluster.pods)
      // any other command: nothing to do
      ensures key in old(cluster.workspaces) && old(cluster.workspaces[key]).spec.command.OtherCommand? ==>
        cluster.pods == old(cluster.pods) && cluster.pvcs == old(cluster.pvcs)
      ensures r.Crashed? ==> key in old(cluster.workspaces) && old(cluster.workspaces[key]).spec.command == Start
      ensures r.Requeue? ==> r.failure.Some?
    {
      podCreated, pvcCreated := false, false;
      var got := cluster.GetWorkSpace(key);
      if got.Err? {
        if got.error == NotFound {
          var err := DeletePod(key);
          if err.Some? {
            r := Requeue(Some(ApiFailure(err.value)));
            return;
          }
          err := DeletePvc(key);
          if err.Some? {
            r := Requeue(Some(ApiFailure(err.value)));
            return;
          }
          r := Done;
          return;
        }
        r := Requeue(Some(ApiFailure(got.error)));
        return;
      }
      var ws := got.value;
      assert ws.name == key;
      r := Done;
      match ws.spec.command
      case Start =>
        var step := CreatePvc(ws, key);
        if step.Failed? {
          r := Requeue(Some(step.failure));
          return;
        }
        pvcCreated := step.created;
        step := CreatePod(ws, key);
        if step.Failed? {
          r := Requeue(Some(step.failure));
          return;
        }
        if step.Panicked? {
          r := Crashed;
          return;
        }
        podCreated := step.created;
      case Stop =>
        var err := DeletePod(key);
        if err.Some? {
          r := Requeue(Some(ApiFailure(err.value)));
          return;
        }
      case OtherCommand(_) =>
    }
  }
}

=== FILE: workspace_service.dfy ===
/**
 * The workspace service the web backend calls over gRPC: it validates
 * requests, names workspaces after their user and space ids, and creates,
 * starts, stops and deletes WorkSpace objects, leaving pods and claims to
 * the controllers. Creating and starting wait for the pod controller to
 * report the workspace running; whether that happens within the 60-second
 * wait is the parameter `ready`.
 */
module WorkspaceService {
  import opened Common
  import opened Text
  import opened Quantity
  import opened WorkspaceTypes
  import Cluster
  import WorkspaceController

  const WorkspaceAlreadyExist := "workspace already exist"
  const WorkspaceNotExist := "workspace not exist"
  const WorkspaceCreateFailed := "create workspace error"
  const WorkspaceStartFailed := "start workspace error"
  const WorkspaceStopFailed := "stop workspace error"
  const WorkspaceDeleteFailed := "delete workspace error"

  /** Attempts of an update that keeps losing to concurrent writers. */
  const RetrySteps := 5

  /** The status field of a response. */
  datatype Status = StatusOk | StatusAlreadyExist | StatusNotFound | StatusError

  /** The gRPC code of the error returned beside a response. */
  datatype Code = CodeInvalidArgument | CodeAlreadyExists | CodeNotFound | CodeUnknown | CodeResourceExhausted

  datatype Response = Response(status: Status, message: string, err: Option<Code>)

  const Succeeded := Response(StatusOk, "", None)

  datatype ResourceLimit = ResourceLimit(cpu: string, memory: string, storage: string)

  datatype RequestCreate = RequestCreate(
    uid: string,
    sid: string,
    image: string,
    port: int,
    mountPath: string,
    gitRepository: string,
    limit: ResourceLimit)

  datatype BasicInfo = BasicInfo(sid: string, name: string)

  /** The WorkSpace object of user `uid`'s space `sid`. */
  function WorkspaceName(uid: string, sid: string): string {
    "ws-" + uid + "-" + sid
  }

  /** Ids without a dash name distinct workspaces. */
  lemma WorkspaceNameInjective(uid1: string, sid1: string, uid2: string, sid2: string)
    requires '-' !in uid1 && '-' !in uid2
    requires WorkspaceName(uid1, sid1) == WorkspaceName(uid2, sid2)
    ensures uid1 == uid2 && sid1 == sid2
  {
    var n := WorkspaceName(uid1, sid1);
    assert n == "ws-" + uid1 + "-" + sid1 && n == "ws-" + uid2 + "-" + sid2;
    var t1 := uid1 + "-" + sid1;
    var t2 := uid2 + "-" + sid2;
    assert t1 == n[3..] && t2 == n[3..];
    assert BeforeFirst(t1, '-') == uid1 by { BeforeFirstAppend(uid1, '-', sid1); }
    assert BeforeFirst(t2, '-') == uid2 by { BeforeFirstAppend(uid2, '-', sid2); }
    assert sid1 == t1[|uid1| + 1..];
    assert sid2 == t2[|uid2| + 1..];
  }

  /** With a dash in the user id, two different users' spaces share one name. */
  lemma WorkspaceNameCollision()
    ensures WorkspaceName("abcdef-x", "123456") == WorkspaceName("abcdef", "x-123456")
  {
  }

  /** A character of Go's regexp class \S: anything but tab, newline, form feed, carriage return and space. */
  predicate IsNonSpace(c: char) {
    c != '\t' && c != '\n' && c != 12 as char && c != '\r' && c != ' '
  }

  /** ^https://\S+.git$ as written: the unescaped dot matches any character but a newline. */
  predicate IsGitUrlAsWritten(s: string) {
    && |s| >= 13
    && s[..8] == "https://"
    && s[|s| - 3..] == "git"
    && s[|s| - 4] != '\n'
    && (forall i :: 8 <= i < |s| - 4 ==> IsNonSpace(s[i]))
  }

  /** ^https://\S+\.git$: an https URL without blanks ending in ".git". */
  predicate IsGitUrl(s: string) {
    && |s| >= 13
    && s[..8] == "https://"
    && s[|s| - 4..] == ".git"
    && (forall i :: 8 <= i < |s| - 4 ==> IsNonSpace(s[i]))
  }

  /** The pattern as written lets through a URL without ".git", whose clone directory keeps the "git" tail. */
  lemma GitUrlWithoutDotAccepted()
    ensures IsGitUrlAsWritten("https://host/repogit")
    ensures !IsGitUrl("https://host/repogit")
    ensures WorkspaceController.RepoDirName("https://host/repogit") == "repogit"
  {
    var url := "https://host/repogit";
    assert IsGitUrlAsWritten(url) by {
      assert url[..8] == "https://";
      assert url[|url| - 3..] == "git";
      var host := "host/rep";
      assert url[8..|url| - 4] == host;
      forall i | 8 <= i < |url| - 4
        ensures IsNonSpace(url[i])
      {
        assert url[i] == host[i - 8];
      }
    }
    assert !IsGitUrl(url) by {
      assert url[|url| - 4] == 'o';
    }
    assert WorkspaceController.RepoDirName(url) == "repogit" by {
      assert url[12] == '/';
      forall j | 12 < j < |url|
        ensures url[j] != '/'
      {
      }
      assert LastIndexByte(url, '/') == 12;
      var last := url[13..];
      assert last == "repogit";
      assert !HasSuffix(last, ".git") by {
        assert last[|last| - 4] == 'o';
      }
      assert WorkspaceController.RepoDirName(url) == TrimSuffix(last, ".git");
    }
  }

  /** A repository URL the corrected pattern accepts ends in ".git", and its clone directory is its last segment without it. */
  lemma AcceptedGitUrlNamesCloneDir(url: string)
    requires IsGitUrl(url)
    ensures HasSuffix(url, ".git")
    ensures var last := url[LastIndexByte(url, '/') + 1..];
            WorkspaceController.RepoDirName(url) + ".git" == last
  {
    var i := LastIndexByte(url, '/');
    assert HasSuffix(url, ".git");
    assert i < |url| - 4 by {
      forall j | |url| - 4 <= j < |url|
        ensures url[j] != '/'
      {
        assert url[j] == url[|url| - 4..][j - (|url| - 4)];
      }
    }
    SuffixOfTail(url, i + 1, ".git");
  }

  predicate IsWordChar(c: char) {
    ('a' <= c <= 'z') || ('A' <= c <= 'Z') || ('0' <= c <= '9') || c == '_' || c == '-'
  }

  /** [\w-]+ */
  predicate IsWord(s: string) {
    s != "" && forall i :: 0 <= i < |s| ==> IsWordChar(s[i])
  }

  function IndexOf(s: string, c: char): (i: int)
    ensures -1 <= i < |s|
    ensures i >= 0 ==> s[i] == c && c !in s[..i]
    ensures i < 0 ==> c !in s
  {
    if s == [] then -1
    else if s[0] == c then 0
    else
      var j := IndexOf(s[1..], c);
      if j < 0 then -1
      else
        assert s[..j + 1] == [s[0]] + s[1..][..j];
        j + 1
  }

  /** [\w-]+\.[\w-]+ */
  predicate IsDottedWord(s: string) {
    var d := IndexOf(s, '.');
    d > 0 && IsWord(s[..d]) && IsWord(s[d + 1..])
  }

  /** (?:[\w-]+\/)*(?:[\w-]+\.[\w-]+|[\w-]+\/?) */
  predicate IsPathTail(s: string)
    decreases |s|
  {
    var k := IndexOf(s, '/');
    if k < 0 then IsWord(s) || IsDottedWord(s)
    else IsWord(s[..k]) && (k == |s| - 1 || IsPathTail(s[k + 1..]))
  }

  /** ^\/(?:[\w-]+\/)*(?:[\w-]+\.[\w-]+|[\w-]+\/?)$: an absolute path of word segments, the last one possibly "name.ext" or followed by one slash. */
  predicate IsMountPath(s: string) {
    s != "" && s[0] == '/' && IsPathTail(s[1..])
  }

  /** A valid mount path is not the root: trimming its final slash leaves a directory below "/". */
  lemma MountPathBelowRoot(mountPath: string)
    requires IsMountPath(mountPath)
    ensures |TrimTrailingSlashes(mountPath)| > 1
  {
    var tail := mountPath[1..];
    var k := IndexOf(tail, '/');
    assert tail != "" && tail[0] != '/' by {
      if k < 0 {
        if IsDottedWord(tail) {
          var d := IndexOf(tail, '.');
          assert tail[..d][0] == tail[0];
        }
      } else {
        assert tail[..k][0] == tail[0];
      }
    }
    assert mountPath[1] != '/';
    TrimKeepsNonSlash(mountPath, 1);
  }

  lemma {:induction false} TrimKeepsNonSlash(s: string, k: nat)
    requires k < |s| && s[k] != '/'
    ensures |TrimTrailingSlashes(s)| > k
    decreases |s|
  {
    if |s| > 1 && s[|s| - 1] == '/' {
      TrimKeepsNonSlash(s[..|s| - 1], k);
    }
  }

  /** Why a request is invalid: the first field that fails its check. */
  datatype InvalidField = BadSid | BadUid | BadPort | BadGitRepository | BadMountPath | BadCpu | BadMemory | BadStorage

  /** CPU, memory and storage must each parse as a quantity. */
  function ValidateResourceLimit(limit: ResourceLimit): (r: Option<InvalidField>)
    ensures r.None? <==> IsQuantity(limit.cpu) && IsQuantity(limit.memory) && IsQuantity(limit.storage)
    ensures r == Some(BadCpu) <==> !IsQuantity(limit.cpu)
    ensures r == Some(BadMemory) ==> !IsQuantity(limit.memory)
    ensures r == Some(BadStorage) ==> !IsQuantity(limit.storage)
  {
    if !IsQuantity(limit.cpu) then Some(BadCpu)
    else if !IsQuantity(limit.memory) then Some(BadMemory)
    else if !IsQuantity(limit.storage) then Some(BadStorage)
    else None
  }

  predicate IsIdentLength(s: string) {
    6 <= |s| <= 24
  }

  /**
   * A create request is valid when sid and uid have 6 to 24 characters, the
   * port is 1024 to 65535, the repository (if any) is a git URL, the mount path
   * is a valid path, and the limits parse.
   */
  function ValidateRequestCreate(req: RequestCreate): (r: Option<InvalidField>)
    ensures r.None? <==>
      && IsIdentLength(req.sid) && IsIdentLength(req.uid)
      && 1024 <= req.port <= 65535
      && (req.gitRepository == "" || IsGitUrl(req.gitRepository))
      && IsMountPath(req.mountPath)
      && ValidateResourceLimit(req.limit).None?
    ensures r == Some(BadSid) <==> !IsIdentLength(req.sid)
    ensures r == Some(BadUid) ==> !IsIdentLength(req.uid)
    ensures r == Some(BadPort) ==> !(1024 <= req.port <= 65535)
    ensures r == Some(BadGitRepository) ==> !IsGitUrl(req.gitRepository)
    ensures r == Some(BadMountPath) ==> !IsMountPath(req.mountPath)
    ensures r.Some? && r.value in {BadCpu, BadMemory, BadStorage} ==> r == ValidateResourceLimit(req.limit)
  {
    if !IsIdentLength(req.sid) then Some(BadSid)
    else if !IsIdentLength(req.uid) then Some(BadUid)
    else if req.port < 1024 || req.port > 65535 then Some(BadPort)
    else if req.gitRepository != "" && !IsGitUrl(req.gitRepository) then Some(BadGitRepository)
    else if !IsMountPath(req.mountPath) then Some(BadMountPath)
    else ValidateResourceLimit(req.limit)
  }

  /** The hardware summary: "<cpu>C<memory up to its first 'i'><storage up to its first 'i'>". */
  function Hardware(limit: ResourceLimit): string {
    limit.cpu + "C" + BeforeFirst(limit.memory, 'i') + BeforeFirst(limit.storage, 'i')
  }

  /** With binary units, the summary reads like "2C4G10G". */
  lemma HardwareOfBinaryAmounts(cpu: string, memory: string, storage: string)
    requires 'i' !in memory && 'i' !in storage
    ensures Hardware(ResourceLimit(cpu, memory + "Gi", storage + "Gi")) == cpu + "C" + memory + "G" + storage + "G"
  {
    assert 'i' !in memory + "G";
    assert 'i' !in storage + "G";
    BeforeFirstAppend(memory + "G", 'i', "");
    BeforeFirstAppend(storage + "G", 'i', "");
    assert memory + "Gi" == memory + "G" + ['i'] + "";
    assert storage + "Gi" == storage + "G" + ['i'] + "";
  }

  /** The WorkSpace a valid create request asks for, labelled with its ids and commanded to start. */
  function ConstructWorkspace(req: RequestCreate, name: string): (ws: WorkSpace)
    requires IsIdentLength(req.uid) && IsIdentLength(req.sid) && 1024 <= req.port <= 65535
    ensures ws.name == name && ws.spec.command == Start
    ensures ws.labels == map["uid" := req.uid, "sid" := req.sid]
    ensures ws.spec == WorkSpaceSpec(req.uid, req.sid, req.limit.cpu, req.limit.memory, req.limit.storage, Hardware(req.limit),
                                     req.image, req.port, req.mountPath, req.gitRepository, Start)
  {
    WorkSpace(
      name,
      map["uid" := req.uid, "sid" := req.sid],
      0,
      WorkSpaceSpec(req.uid, req.sid, req.limit.cpu, req.limit.memory, req.limit.storage, Hardware(req.limit),
                    req.image, req.port, req.mountPath, req.gitRepository, Start),
      WorkSpaceStatus(OtherPhase("")))
  }

  /**
   * A workspace created from a valid request carries the request's ids,
   * resources, image, port, mount path and repository, and the controller can
   * build both its claim and its pod: no quantity fails to parse and MustParse
   * does not panic, whatever the mode.
   */
  lemma ValidRequestBuildsWorkspace(req: RequestCreate, name: string, config: WorkspaceController.Config)
    requires ValidateRequestCreate(req).None?
    ensures var ws := Cluster.Created(ConstructWorkspace(req, name), 1);
      && ws.spec.uid == req.uid && ws.spec.sid == req.sid
      && ws.spec.cpu == req.limit.cpu && ws.spec.memory == req.limit.memory && ws.spec.storage == req.limit.storage
      && ws.spec.image == req.image && ws.spec.port == req.port
      && ws.spec.mountPath == req.mountPath && ws.spec.gitRepository == req.gitRepository
      && ws.status.phase == CreatedPhase
      && WorkspaceController.ConstructPvc(ws, config).Ok?
      && WorkspaceController.ConstructPod(ws, config).Some?
  {
  }

  /** For a valid request cloning "<base>/<name>.git", the editor opens <mount path>/workspace/<name>. */
  lemma ValidRequestOpensClone(req: RequestCreate, wsName: string, base: string, repo: string)
    requires ValidateRequestCreate(req).None?
    requires req.gitRepository == base + "/" + repo + ".git" && repo != "" && '/' !in repo && repo != "." && repo != ".."
    ensures WorkspaceController.OpenDir(ConstructWorkspace(req, wsName).spec)
            == TrimTrailingSlashes(req.mountPath) + "/workspace/" + repo
  {
    MountPathBelowRoot(req.mountPath);
    WorkspaceController.ClonedRepositoryOpened(ConstructWorkspace(req, wsName).spec, base, repo);
  }

  /** What a failed wait reports: the wait timed out, or the stop that follows it failed. */
  datatype WaitFailure = TimedOut | StopFailed(code: Code)

  /** waitForPodRunning as written: after a failed wait, the result of stopping the workspace is returned. */
  function WaitOutcomeAsWritten(ready: bool, stopError: Option<Code>): Option<WaitFailure> {
    if ready then None
    else if stopError.Some? then Some(StopFailed(stopError.value))
    else None
  }

  /** A wait that timed out is reported as success when stopping the workspace works. */
  lemma TimeoutReportedAsSuccess()
    ensures WaitOutcomeAsWritten(false, None).None?
  {
  }

  /** waitForPodRunning corrected: a wait that fails is a failure, whatever the stop that follows. */
  function WaitOutcome(ready: bool, stopError: Option<Code>): (r: Option<WaitFailure>)
    ensures r.None? <==> ready
    ensures stopError.None? && !ready ==> r == Some(TimedOut)
  {
    if ready then None else Some(TimedOut)
  }

  /** The running (or starting) workspaces among `items`, in list order. */
  function RunningInfos(items: seq<WorkSpace>): seq<BasicInfo> {
    if items == [] then []
    else
      var last := items[|items| - 1];
      RunningInfos(items[..|items| - 1]) + (if IsUp(last.status.phase) then [BasicInfo(last.spec.sid, last.name)] else [])
  }

  /** A workspace is reported exactly when it is starting or running. */
  lemma {:induction false} RunningInfosMembers(items: seq<WorkSpace>, info: BasicInfo)
    ensures info in RunningInfos(items) <==>
      exists i :: 0 <= i < |items| && IsUp(items[i].status.phase) && info == BasicInfo(items[i].spec.sid, items[i].name)
    ensures |RunningInfos(items)| <= |items|
  {
    if items != [] {
      var front := items[..|items| - 1];
      RunningInfosMembers(front, info);
      if info in RunningInfos(items) && info !in RunningInfos(front) {
        assert IsUp(items[|items| - 1].status.phase) && info == BasicInfo(items[|items| - 1].spec.sid, items[|items| - 1].name);
      }
      if exists i :: 0 <= i < |items| && IsUp(items[i].status.phase) && info == BasicInfo(items[i].spec.sid, items[i].name) {
        var i :| 0 <= i < |items| && IsUp(items[i].status.phase) && info == BasicInfo(items[i].spec.sid, items[i].name);
        if i < |items| - 1 {
          assert front[i] == items[i];
        }
      }
      forall i | 0 <= i < |front| && IsUp(front[i].status.phase) && info == BasicInfo(front[i].spec.sid, front[i].name)
        ensures info in RunningInfos(items)
      {
      }
    }
  }

  /** The changes an update makes to a stored spec: a new command, and possibly new CPU and memory limits. */
  datatype SpecChange = SpecChange(command: Command, limits: Option<(string, string)>)

  function Changed(spec: WorkSpaceSpec, change: SpecChange): (r: WorkSpaceSpec)
    ensures r.command == change.command
    ensures r.storage == spec.storage && r.uid == spec.uid && r.sid == spec.sid && r.image == spec.image
    ensures r.mountPath == spec.mountPath && r.gitRepository == spec.gitRepository && r.port == spec.port
    ensures change.limits.Some? ==> r.cpu == change.limits.value.0 && r.memory == change.limits.value.1
    ensures change.limits.None? ==> r.cpu == spec.cpu && r.memory == spec.memory
    ensures r.hardware == spec.hardware
  {
    match change.limits
    case None => spec.(command := change.command)
    case Some((cpu, memory)) => spec.(cpu := cpu, memory := memory, command := change.command)
  }

  /** `after` is `before` where at most the version of `key` moved and its spec became `spec`. */
  ghost predicate SpecWrittenAtMost(before: map<string, WorkSpace>, after: map<string, WorkSpace>, key: string, spec: WorkSpaceSpec) {
    && after.Keys == before.Keys
    && Cluster.AgreeExcept(before, after, key)
    && (key in before ==>
          after[key] == before[key].(resourceVersion := after[key].resourceVersion)
          || after[key] == before[key].(spec := spec, resourceVersion := after[key].resourceVersion))
  }

  /**
   * What a start of `key` with the limits `cpu` and `memory` may leave behind:
   * the workspace keeps its status, and its spec is the old one or the started
   * one; a failed wait then writes Stop to the workspace named after the ids
   * in that spec, which is `key` itself when the ids match.
   */
  ghost predicate StartWrittenAtMost(before: map<string, WorkSpace>, after: map<string, WorkSpace>, key: string, cpu: string, memory: string)
    requires key in before
  {
    var ws := before[key];
    var other := WorkspaceName(ws.spec.uid, ws.spec.sid);
    var started := ws.spec.(cpu := cpu, memory := memory, command := Start);
    && after.Keys == before.Keys
    && Cluster.AgreeOutside(before, after, {key, other})
    && after[key] == ws.(spec := after[key].spec, resourceVersion := after[key].resourceVersion)
    && (|| after[key].spec == ws.spec
        || after[key].spec == started
        || (other == key && (after[key].spec == ws.spec.(command := Stop) || after[key].spec == started.(command := Stop))))
    && (other != key && other in before ==>
          || after[other] == before[other].(resourceVersion := after[other].resourceVersion)
          || after[other] == before[other].(spec := before[other].spec.(command := Stop), resourceVersion := after[other].resourceVersion))
  }

  /** Writing the started spec, or nothing, is within what a start may leave. */
  lemma StartUpdateWithin(before: map<string, WorkSpace>, after: map<string, WorkSpace>, key: string, cpu: string, memory: string)
    requires key in before
    requires SpecWrittenAtMost(before, after, key, Changed(before[key].spec, SpecChange(Start, Some((cpu, memory)))))
    ensures StartWrittenAtMost(before, after, key, cpu, memory)
  {
    var ws := before[key];
    assert Changed(ws.spec, SpecChange(Start, Some((cpu, memory)))) == ws.spec.(cpu := cpu, memory := memory, command := Start);
  }

  /** A start's update followed by the Stop of a failed wait is within what a start may leave. */
  lemma StartThenStopWithin(before: map<string, WorkSpace>, mid: map<string, WorkSpace>, after: map<string, WorkSpace>,
                            key: string, cpu: string, memory: string)
    requires key in before
    requires SpecWrittenAtMost(before, mid, key, Changed(before[key].spec, SpecChange(Start, Some((cpu, memory)))))
    requires var other := WorkspaceName(before[key].spec.uid, before[key].spec.sid);
      && (other in mid ==> SpecWrittenAtMost(mid, after, other, mid[other].spec.(command := Stop)))
      && (other !in mid ==> after == mid)
    ensures StartWrittenAtMost(before, after, key, cpu, memory)
  {
    var ws := before[key];
    var other := WorkspaceName(ws.spec.uid, ws.spec.sid);
    var started := ws.spec.(cpu := cpu, memory := memory, command := Start);
    assert Changed(ws.spec, SpecChange(Start, Some((cpu, memory)))) == started;
    assert mid[key].spec == ws.spec || mid[key].spec == started;
    forall n | n !in {key, other}
      ensures (n in after <==> n in before) && (n in after ==> after[n] == before[n])
    {
      assert n != key && n != other;
    }
  }

  class WorkSpaceService {
    const cluster: Cluster.Store

    constructor (cluster: Cluster.Store)
      ensures this.cluster == cluster
    {
      this.cluster := cluster;
    }

    /** checkWorkspaceExist: the stored workspace, or None when it is missing or cannot be read. */
    method CheckWorkspaceExist(key: string) returns (ws: Option<WorkSpace>)
      ensures ws.Some? ==> key in cluster.workspaces && ws.value == cluster.workspaces[key]
      ensures key !in cluster.workspaces ==> ws.None?
    {
      var got := cluster.GetWorkSpace(key);
      if got.Err? {
        return None;
      }
      return Some(got.value);
    }

    /**
     * RetryOnConflict with the default five steps around: read the latest
     * `key`, apply `change` to its spec and update it. A read that finds
     * nothing ends the retry without error and with `exist` false.
     */
    method RetryUpdate(key: string, change: SpecChange) returns (err: Option<Cluster.ApiError>, exist: bool)
      requires cluster.Valid()
      modifies cluster
      ensures cluster.Valid()
      ensures cluster.pods == old(cluster.pods) && cluster.pvcs == old(cluster.pvcs)
      ensures key in old(cluster.workspaces) ==>
        SpecWrittenAtMost(old(cluster.workspaces), cluster.workspaces, key, Changed(old(cluster.workspaces[key]).spec, change))
      ensures key !in old(cluster.workspaces) ==> cluster.workspaces == old(cluster.workspaces) && !exist && err.None?
      ensures err.None? && exist ==>
        key in cluster.workspaces
        && cluster.workspaces[key] == old(cluster.workspaces[key]).(spec := Changed(old(cluster.workspaces[key]).spec, change),
                                                                    resourceVersion := cluster.workspaces[key].resourceVersion)
      ensures !exist ==> err.None?
      ensures err.Some? ==> err.value == Cluster.Conflict || err.value == Cluster.Unavailable
    {
      exist := true;
      err := None;
      var attempts := 0;
      while attempts < RetrySteps
        invariant cluster.Valid()
        invariant cluster.pods == old(cluster.pods) && cluster.pvcs == old(cluster.pvcs)
        invariant cluster.workspaces.Keys == old(cluster.workspaces).Keys
        invariant Cluster.AgreeExcept(old(cluster.workspaces), cluster.workspaces, key)
        invariant key in cluster.workspaces ==>
          cluster.workspaces[key] == old(cluster.workspaces[key]).(resourceVersion := cluster.workspaces[key].resourceVersion)
        invariant attempts > 0 ==> err == Some(Cluster.Conflict)
        invariant key !in old(cluster.workspaces) ==> attempts == 0 && cluster.workspaces == old(cluster.workspaces)
      {
        var current := CheckWorkspaceExist(key);
        if current.None? {
          exist := false;
          err := None;
          return;
        }
        var ws := current.value;
        assert key in old(cluster.workspaces);
        err := cluster.UpdateWorkSpace(ws.(spec := Changed(ws.spec, change)));
        if err != Some(Cluster.Conflict) {
          return;
        }
        attempts := attempts + 1;
      }
    }

    /**
     * The retry of StartSpace as written: every attempt rereads the workspace
     * into a copy it throws away, then submits `ws`, the copy read before the
     * retry began with the new limits and the Start command set on it; and the
     * closure's own `exist` hides a workspace that has gone.
     */
    method StartRetryAsWritten(key: string, ws: WorkSpace, limit: ResourceLimit) returns (err: Option<Cluster.ApiError>)
      requires cluster.Valid() && ws.name == key && ws.resourceVersion <= cluster.revision
      modifies cluster
      ensures cluster.Valid()
      ensures cluster.pods == old(cluster.pods) && cluster.pvcs == old(cluster.pvcs)
      // once the stored copy has moved on, every attempt conflicts or ends early: the new spec is never written
      ensures key in old(cluster.workspaces) && ws.resourceVersion != old(cluster.workspaces[key].resourceVersion) ==>
        key in cluster.workspaces && cluster.workspaces[key].spec == old(cluster.workspaces[key].spec)
      // the retry reports a workspace that is gone as updated
      ensures key !in old(cluster.workspaces) ==> err.None? && cluster.workspaces == old(cluster.workspaces)
      ensures err.Some? ==> err.value == Cluster.Conflict || err.value == Cluster.Unavailable
    {
      var submitted := ws.(spec := ws.spec.(cpu := limit.cpu, memory := limit.memory, command := Start));
      err := None;
      var attempts := 0;
      while attempts < RetrySteps
        invariant cluster.Valid()
        invariant cluster.pods == old(cluster.pods) && cluster.pvcs == old(cluster.pvcs)
        invariant key !in old(cluster.workspaces) ==> cluster.workspaces == old(cluster.workspaces) && err.None? && attempts == 0
        invariant key in old(cluster.workspaces) && ws.resourceVersion != old(cluster.workspaces[key].resourceVersion) ==>
          key in cluster.workspaces && cluster.workspaces[key].spec == old(cluster.workspaces[key].spec)
          && ws.resourceVersion != cluster.workspaces[key].resourceVersion
        invariant ws.resourceVersion <= cluster.revision
        invariant attempts > 0 ==> err == Some(Cluster.Conflict)
      {
        var latest := CheckWorkspaceExist(key);
        if latest.None? {
          return None;
        }
        err := cluster.UpdateWorkSpace(submitted);
        if err != Some(Cluster.Conflict) {
          return;
        }
        attempts := attempts + 1;
      }
    }

    /** Wait for the pod of `ws`; when it is not ready in time, stop the workspace and report the failure. */
    method WaitForPodRunning(ws: WorkSpace, ready: bool) returns (failure: Option<WaitFailure>)
      requires cluster.Valid()
      modifies cluster
      ensures cluster.Valid()
      ensures cluster.pods == old(cluster.pods) && cluster.pvcs == old(cluster.pvcs)
      ensures failure.None? <==> ready
      ensures ready ==> cluster.workspaces == old(cluster.workspaces)
      ensures !ready && WorkspaceName(ws.spec.uid, ws.spec.sid) !in old(cluster.workspaces) ==>
        cluster.workspaces == old(cluster.workspaces)
      ensures !ready ==>
        var name := WorkspaceName(ws.spec.uid, ws.spec.sid);
        name in old(cluster.workspaces) ==>
          SpecWrittenAtMost(old(cluster.workspaces), cluster.workspaces, name, old(cluster.workspaces[name]).spec.(command := Stop))
    {
      if ready {
        return None;
      }
      var stopped := StopSpace(ws.spec.uid, ws.spec.sid);
      return WaitOutcome(ready, stopped.err);
    }

    /** CreateSpace: validate, refuse an existing name, create the workspace with the Start command, and wait for it. */
    method CreateSpace(req: RequestCreate, ready: bool) returns (res: Response)
      requires cluster.Valid()
      modifies cluster
      ensures cluster.Valid()
      ensures cluster.pods == old(cluster.pods) && cluster.pvcs == old(cluster.pvcs)
      ensures ValidateRequestCreate(req).Some? ==>
        res == Response(StatusError, "", Some(CodeInvalidArgument)) && cluster.workspaces == old(cluster.workspaces)
      ensures ValidateRequestCreate(req).None? && WorkspaceName(req.uid, req.sid) in old(cluster.workspaces) ==>
        cluster.workspaces == old(cluster.workspaces)
        && (res == Response(StatusAlreadyExist, WorkspaceAlreadyExist, Some(CodeAlreadyExists))
            || res == Response(StatusError, WorkspaceCreateFailed, Some(CodeUnknown)))
      ensures res.status == StatusOk ==>
        var name := WorkspaceName(req.uid, req.sid);
        && ValidateRequestCreate(req).None? && ready
        && name !in old(cluster.workspaces) && name in cluster.workspaces
        && cluster.workspaces[name] == Cluster.Created(ConstructWorkspace(req, name), cluster.workspaces[name].resourceVersion)
        && Cluster.AgreeExcept(old(cluster.workspaces), cluster.workspaces, name)
      ensures res.status == StatusOk <==> res.err.None?
      ensures Cluster.AgreeExcept(old(cluster.workspaces), cluster.workspaces, WorkspaceName(req.uid, req.sid))
      ensures res.err == Some(CodeUnknown) ==> cluster.workspaces == old(cluster.workspaces)
      ensures res.err == Some(CodeResourceExhausted) ==> ValidateRequestCreate(req).None? && !ready
      // a workspace that did not come up stays created, with Stop written unless that update failed
      ensures res.err == Some(CodeResourceExhausted) && ValidateRequestCreate(req).None? ==>
        var name := WorkspaceName(req.uid, req.sid);
        var w := ConstructWorkspace(req, name);
        && name !in old(cluster.workspaces) && name in cluster.workspaces
        && cluster.workspaces[name] == Cluster.Created(w, cluster.workspaces[name].resourceVersion).(spec := cluster.workspaces[name].spec)
        && (cluster.workspaces[name].spec == w.spec || cluster.workspaces[name].spec == w.spec.(command := Stop))
    {
      if ValidateRequestCreate(req).Some? {
        return Response(StatusError, "", Some(CodeInvalidArgument));
      }
      var name := WorkspaceName(req.uid, req.sid);
      var existing := CheckWorkspaceExist(name);
      if existing.Some? {
        return Response(StatusAlreadyExist, WorkspaceAlreadyExist, Some(CodeAlreadyExists));
      }
      var w := ConstructWorkspace(req, name);
      var err := cluster.CreateWorkSpace(w);
      if err.Some? {
        if err.value == Cluster.AlreadyExists {
          return Response(StatusAlreadyExist, WorkspaceAlreadyExist, Some(CodeAlreadyExists));
        }
        return Response(StatusError, WorkspaceCreateFailed, Some(CodeUnknown));
      }
      var failure := WaitForPodRunning(w, ready);
      if failure.Some? {
        return Response(StatusError, WorkspaceStartFailed, Some(CodeResourceExhausted));
      }
      return Succeeded;
    }

    /**
     * StartSpace: validate the new limits, find the workspace, do nothing if it
     * is already up, otherwise set the new CPU and memory and the Start command
     * on the latest copy, and wait for it.
     */
    method StartSpace(uid: string, sid: string, limit: ResourceLimit, ready: bool) returns (res: Response)
      requires cluster.Valid()
      modifies cluster
      ensures cluster.Valid()
      ensures cluster.pods == old(cluster.pods) && cluster.pvcs == old(cluster.pvcs)
      ensures ValidateResourceLimit(limit).Some? ==>
        res == Response(StatusOk, "", Some(CodeUnknown)) && cluster.workspaces == old(cluster.workspaces)
      ensures ValidateResourceLimit(limit).None? && WorkspaceName(uid, sid) !in old(cluster.workspaces) ==>
        res == Response(StatusNotFound, WorkspaceNotExist, Some(CodeNotFound)) && cluster.workspaces == old(cluster.workspaces)
      ensures res == Succeeded ==>
        var key := WorkspaceName(uid, sid);
        && key in old(cluster.workspaces) && key in cluster.workspaces
        && ((cluster.workspaces == old(cluster.workspaces) && IsUp(old(cluster.workspaces[key]).status.phase))
            || (ready && cluster.workspaces[key].spec == old(cluster.workspaces[key]).spec.(cpu := limit.cpu, memory := limit.memory, command := Start)))
      ensures res == Succeeded ==> Cluster.AgreeExcept(old(cluster.workspaces), cluster.workspaces, WorkspaceName(uid, sid))
      ensures WorkspaceName(uid, sid) in old(cluster.workspaces) ==>
        StartWrittenAtMost(old(cluster.workspaces), cluster.workspaces, WorkspaceName(uid, sid), limit.cpu, limit.memory)
      ensures res.status == StatusOk && res.err.None? ==> res == Succeeded
      ensures res.status != StatusOk ==> res.err.Some?
    {
      if ValidateResourceLimit(limit).Some? {
        return Response(StatusOk, "", Some(CodeUnknown));
      }
      var key := WorkspaceName(uid, sid);
      var existing := CheckWorkspaceExist(key);
      if existing.None? {
        return Response(StatusNotFound, WorkspaceNotExist, Some(CodeNotFound));
      }
      var ws := existing.value;
      if IsUp(ws.status.phase) {
        return Succeeded;
      }
      ghost var before := cluster.workspaces;
      var err, exist := RetryUpdate(key, SpecChange(Start, Some((limit.cpu, limit.memory))));
      StartUpdateWithin(before, cluster.workspaces, key, limit.cpu, limit.memory);
      if err.Some? {
        return Response(StatusError, WorkspaceStartFailed, Some(CodeUnknown));
      }
      if !exist {
        return Response(StatusNotFound, WorkspaceNotExist, Some(CodeNotFound));
      }
      ghost var mid := cluster.workspaces;
      var failure := WaitForPodRunning(ws, ready);
      StartThenStopWithin(before, mid, cluster.workspaces, key, limit.cpu, limit.memory);
      if failure.Some? {
        return Response(StatusError, WorkspaceStartFailed, Some(CodeResourceExhausted));
      }
      return Succeeded;
    }

    /** StopSpace: nothing to do if the workspace is already going down; otherwise set the Stop command. */
    method StopSpace(uid: string, sid: string) returns (res: Response)
      requires cluster.Valid()
      modifies cluster
      ensures cluster.Valid()
      ensures cluster.pods == old(cluster.pods) && cluster.pvcs == old(cluster.pvcs)
      ensures WorkspaceName(uid, sid) !in old(cluster.workspaces) ==>
        res == Response(StatusNotFound, WorkspaceNotExist, Some(CodeNotFound)) && cluster.workspaces == old(cluster.workspaces)
      ensures var key := WorkspaceName(uid, sid);
        key in old(cluster.workspaces) ==>
          SpecWrittenAtMost(old(cluster.workspaces), cluster.workspaces, key, old(cluster.workspaces[key]).spec.(command := Stop))
      ensures res.status == StatusOk ==>
        var key := WorkspaceName(uid, sid);
        && key in old(cluster.workspaces)
        && ((cluster.workspaces == old(cluster.workspaces) && IsDown(old(cluster.workspaces[key]).status.phase))
            || (key in cluster.workspaces && cluster.workspaces[key].spec.command == Stop))
      ensures res.status == StatusOk <==> res.err.None?
    {
      var name := WorkspaceName(uid, sid);
      var got := cluster.GetWorkSpace(name);
      if got == Err(Cluster.NotFound) {
        return Response(StatusNotFound, WorkspaceNotExist, Some(CodeNotFound));
      }
      // any other read error leaves an empty workspace, whose phase is ""
      var phase := if got.Ok? then got.value.status.phase else OtherPhase("");
      if IsDown(phase) {
        return Succeeded;
      }
      var err, exist := RetryUpdate(name, SpecChange(Stop, None));
      if err.Some? {
        return Response(StatusError, WorkspaceStopFailed, Some(CodeUnknown));
      }
      if !exist {
        return Response(StatusNotFound, WorkspaceNotExist, Some(CodeNotFound));
      }
      return Succeeded;
    }

    /** DeleteSpace: delete the workspace if it can be found; the controller removes its pod and claim. */
    method DeleteSpace(uid: string, sid: string) returns (res: Response)
      requires cluster.Valid()
      modifies cluster
      ensures cluster.Valid()
      ensures cluster.pods == old(cluster.pods) && cluster.pvcs == old(cluster.pvcs)
      ensures var key := WorkspaceName(uid, sid);
        cluster.workspaces == old(cluster.workspaces) || cluster.workspaces == old(cluster.workspaces) - {key}
      ensures WorkspaceName(uid, sid) !in old(cluster.workspaces) ==> res == Succeeded
      ensures res.status == StatusOk ==> res == Succeeded
      ensures res.status != StatusOk ==> res == Response(StatusError, WorkspaceDeleteFailed, Some(CodeUnknown))
    {
      var name := WorkspaceName(uid, sid);
      var existing := CheckWorkspaceExist(name);
      if existing.None? {
        return Succeeded;
      }
      var err := cluster.DeleteWorkSpace(existing.value.name);
      if err.Some? {
        return Response(StatusError, WorkspaceDeleteFailed, Some(CodeUnknown));
      }
      return Succeeded;
    }

    /** RunningWorkspaces: the sid and name of every starting or running workspace of user `uid`. */
    method RunningWorkspaces(uid: string) returns (r: Result<seq<BasicInfo>, Code>)
      requires cluster.Valid()
      ensures r.Err? ==> r.error == CodeUnknown
      ensures r.Ok? ==> exists items :: cluster.Listing(items, uid) && r.value == RunningInfos(items)
    {
      var listed := cluster.ListWorkSpaces(uid);
      if listed.Err? {
        return Err(CodeUnknown);
      }
      var items := listed.value;
      var infos: seq<BasicInfo> := [];
      for i := 0 to |items|
        invariant infos == RunningInfos(items[..i])
      {
        assert items[..i + 1][..i] == items[..i];
        if IsUp(items[i].status.phase) {
          infos := infos + [BasicInfo(items[i].spec.sid, items[i].name)];
        }
      }
      assert items[..|items|] == items;
      return Ok(infos);
    }
  }
}

=== FILE: workspace_types.dfy ===
/**
 * The WorkSpace custom resource: its spec (what the user asked for), its
 * status (the phase the controllers observed) and the bounds its schema
 * enforces on admission.
 */
module WorkspaceTypes {

  /** The command field of a spec: "Start", "Stop", or any other text, "" included, which no controller acts on. */
  datatype Command = Start | Stop | OtherCommand(text: string)

  function CommandText(c: Command): string {
    match c
    case Start => "Start"
    case Stop => "Stop"
    case OtherCommand(t) => t
  }

  predicate WellFormedCommand(c: Command) {
    c.OtherCommand? ==> c.text != "Start" && c.text != "Stop"
  }

  /** Reading the command field of a stored spec. */
  function ParseCommand(s: string): (c: Command)
    ensures WellFormedCommand(c) && CommandText(c) == s
  {
    if s == "Start" then Start else if s == "Stop" then Stop else OtherCommand(s)
  }

  lemma CommandRoundTrip(c: Command)
    requires WellFormedCommand(c)
    ensures ParseCommand(CommandText(c)) == c
  {
  }

  /** The phase of a workspace: the four phases the controllers write, or any other text. */
  datatype Phase = Running | Starting | Stopping | Stopped | OtherPhase(text: string)

  /** The phase the schema gives a workspace whose status was never written. */
  const CreatedPhase: Phase := OtherPhase("Created")

  predicate IsPhaseName(s: string) {
    s == "Running" || s == "Starting" || s == "Stopping" || s == "Stopped"
  }

  function PhaseText(p: Phase): string {
    match p
    case Running => "Running"
    case Starting => "Starting"
    case Stopping => "Stopping"
    case Stopped => "Stopped"
    case OtherPhase(t) => t
  }

  predicate WellFormedPhase(p: Phase) {
    p.OtherPhase? ==> !IsPhaseName(p.text)
  }

  /** Reading the phase field of a stored status. */
  function ParsePhase(s: string): (p: Phase)
    ensures WellFormedPhase(p) && PhaseText(p) == s
    ensures p.OtherPhase? <==> !IsPhaseName(s)
  {
    match s
    case "Running" => Running
    case "Starting" => Starting
    case "Stopping" => Stopping
    case "Stopped" => Stopped
    case _ => OtherPhase(s)
  }

  lemma PhaseRoundTrip(p: Phase)
    requires WellFormedPhase(p)
    ensures ParsePhase(PhaseText(p)) == p
  {
  }

  /** Starting or Running: the workspace is meant to be up. */
  predicate IsUp(p: Phase) {
    p == Starting || p == Running
  }

  /** Stopping or Stopped: the workspace is meant to be down. */
  predicate IsDown(p: Phase) {
    p == Stopping || p == Stopped
  }

  /**
   * uid and sid: 6 to 24 characters when present. The fields are omitted when
   * empty, and the schema checks only fields that are present.
   */
  type Ident = s: string | s == "" || 6 <= |s| <= 24

  /** The exposed port: 1024 to 65535 when present (0 is omitted). */
  type PortNumber = p: int | p == 0 || 1024 <= p <= 65535

  datatype WorkSpaceSpec = WorkSpaceSpec(
    uid: Ident,
    sid: Ident,
    cpu: string,
    memory: string,
    storage: string,
    hardware: string,
    image: string,
    port: PortNumber,
    mountPath: string,
    gitRepository: string,
    command: Command)

  datatype WorkSpaceStatus = WorkSpaceStatus(phase: Phase)

  /** A stored WorkSpace: object name, labels, resource version, spec and status. */
  datatype WorkSpace = WorkSpace(
    name: string,
    labels: map<string, string>,
    resourceVersion: nat,
    spec: WorkSpaceSpec,
    status: WorkSpaceStatus)
}
